=== FILE: README.md ===
# Habit tracker core in Dafny

A model of the logic of a small single-user tracker for habits, body weight
and food. Every piece is a pure transformation over immutable records:

- **Habits** (`Habits`, `App`, `HabitList`, `HabitCard`, `Setup`):
  - a habit is done on a day when one of its completion strings starts with
    that day's key;
  - toggling removes every completion of the day, or appends the day key;
  - progress is a rounded percentage;
  - the application handlers add, toggle, delete and import habits;
  - the habit list splits into pending and completed habits;
  - a card's swipe gesture toggles the habit.
- **Food log** (`FoodTracker`, `AddFoodItem`):
  - quick-add, add-item, delete and edit keep each item's `useCount` equal to
    the number of entries referring to it, and never below zero;
  - the views are favourites, suggestions from yesterday, today's entries by
    time of day, and the healthy/unhealthy figures.
- **Weight log** (`WeightTracker`, `WeightSetup`):
  - adding and deleting keep `currentWeight` equal to the weight of the last
    entry, or `startWeight` when there is none;
  - the stats compare two seven-day averages;
  - there are four weekly averages and a thirty-day chart series.
- **Backups** (`Storage`): the export envelope, and the shape check and
  defaulting on import, over an abstract JSON value.
- **Colours** (`Colors`): the 32-bit wrapping string hash and its palette.

The shared pieces are:
- `Types`: the records;
- `Seqs`: `filter`, `find`, de-duplication, a stable sort, `slice` and means
  over sequences, with their lemmas;
- `Text`: `startsWith`, `trim` and `split('T')[0]`;
- `Wrappers`: `Option` and `Result`.

Everything outside these modules becomes a parameter:
- the clock: "now", today's and yesterday's day keys, the current hour;
- how stored timestamps read as a time value (`at`) and as a local hour
  (`hourOf`);
- fresh ids;
- the answer of the confirmation dialog;
- `parseFloat` results: the `Parsed` type, `NaN` or a number;
- `JSON.parse`: a partial function, `None` when it throws;
- `JSON.stringify`.

Weights and amounts are exact rationals (`real`). The colour hash writes out
ECMAScript's 32-bit conversions explicitly.

## Model

| member | source | states |
|---|---|---|
| Habits.AnyStartsWith | src/utils/habits.ts:27-30 | true exactly when some completion string starts with the day key |
| Habits.CreateHabit | src/utils/habits.ts:18-25 | the new habit has the given name, id and creation time, and counts as done on no day |
| Habits.IsCompletedOn | src/utils/habits.ts:27-29 | a habit counts as done on a day exactly when one of its completions begins with the day key |
| Habits.TargetDay | src/utils/habits.ts:33 | a non-empty date is the target day; a missing or empty date (both falsy) means today |
| Habits.ToggleHabitCompletion | src/utils/habits.ts:32-47 | keeps id, name and creation time, and flips whether the habit is done on the target day |
| Habits.ToggleDefaultsToToday | src/utils/habits.ts:32-34 | toggling without a date, or with an empty one, is toggling today |
| Habits.ToggleCompletion | src/utils/habits.ts:32-47 | id, name and creation time are unchanged. On a done day, the result is no longer done that day. It keeps, in order, every completion of other days, each as many times as before, and nothing else. On a day not done, exactly the day key is appended at the end and the habit becomes done |
| Habits.ToggleTwiceRestores | src/utils/habits.ts:32-47 | completing a day that was not done and then undoing it gives back the identical habit |
| Habits.RoundPercent | src/utils/habits.ts:60 | the result lies in 0..100 and is `100c/n` rounded to the nearest integer, halves up |
| Habits.CountCompleted | src/utils/habits.ts:57-59 | the number of habits done that day never exceeds the number of habits. It is zero exactly when no habit is done that day, and equals the number of habits exactly when every habit is |
| Habits.CountCompletedSnoc | src/utils/habits.ts:57-59 | counting habit by habit: one more habit adds one to the count exactly when it is done that day |
| Habits.HalfDoneIsFifty | src/utils/__tests__/habits.test.ts:143-158 | one of two habits done that day gives progress 50 |
| Habits.DateProgress | src/utils/habits.ts:55-61 | progress lies in 0..100 and is 0 for an empty list. Otherwise it is 100 times the share of habits done that day, rounded to the nearest integer with halves rounded up |
| Habits.TodayProgress | src/utils/habits.ts:49-53 | today's progress equals the date progress of today's key |
| Habits.RoundFullIff | src/utils/habits.ts:60 | for fewer than 200 habits, the rounded percentage is 100 exactly when all are done |
| Habits.RoundZeroIff | src/utils/habits.ts:60 | for at most 200 habits, the rounded percentage is 0 exactly when none is done |
| Habits.RoundingHidesStragglers | src/utils/habits.ts:60 | both bounds are tight: 199 of 200 rounds to 100, and 1 of 201 rounds to 0 |
| Habits.ProgressFullIff | src/utils/habits.ts:55-61 | for 1 to 199 habits, progress is 100 exactly when every habit is done that day |
| Habits.ProgressZeroIff | src/utils/habits.ts:55-61 | for up to 200 habits, progress is 0 exactly when no habit is done that day |
| App.AddHabit | src/App.tsx:64-71 | without habit data, nothing changes. Otherwise exactly one habit with the given id, name and creation time and no completions is appended after the unchanged old ones. The user name and the other slots are kept |
| App.ToggleById | src/App.tsx:77-79 | same length. Habits with the id are toggled for today, and every other habit stays in place |
| App.ToggleHabit | src/App.tsx:73-81 | without habit data, nothing changes. Otherwise the habits are toggled by id, and the user name and the other slots are kept |
| App.ToggleByIdTwice | src/App.tsx:73-81 | toggling the same id twice is the identity when no habit with that id was done today |
| App.DeleteHabit | src/App.tsx:83-91 | without data, or when not confirmed, nothing changes. Otherwise the result keeps the order of the old list and contains no habit with that id. Every other habit remains, as many times as before, and the other slots are kept |
| App.AddThenDelete | src/App.tsx:64-91 | adding a habit under a fresh id and deleting it (confirmed) restores the state |
| App.Import | src/App.tsx:93-96 | the legacy import replaces the habit data, shows the habits view and keeps weight and food |
| App.ImportAll | src/App.tsx:98-113 | habit data is always replaced. Weight and food are replaced only when the backup carries them, and are kept otherwise |
| App.ImportAllIdempotent | src/App.tsx:98-113 | importing the same backup twice equals importing it once |
| App.ClearAll | src/App.tsx:115-119 | only the habit slot is cleared. Weight and food are kept |
| App.WeightToggle | src/App.tsx:130-140 | switching on only opens the weight view. Switching off clears `enabled` on existing weight data, changes no other field, and does nothing without data |
| App.WeightClear | src/App.tsx:146-149 | only the weight slot is cleared |
| App.FoodToggle | src/App.tsx:156-171 | switching on installs an empty, enabled food log and opens the food view. Switching off clears `enabled` on existing food data, changes no other field, and does nothing without data |
| App.DisableIdempotent | src/App.tsx:130-171 | switching either tracker off twice equals switching it off once |
| App.FoodClear | src/App.tsx:177-180 | only the food slot is cleared |
| HabitList.Pending | src/components/HabitList.tsx:20 | a habit is pending exactly when it is in the list and not done today |
| HabitList.Completed | src/components/HabitList.tsx:21 | a habit is listed as completed exactly when it is in the list and done today |
| HabitList.PendingCompletedPartition | src/components/HabitList.tsx:20-21 | pending and completed split the list: lengths and multisets add up, each keeps the list's order, and membership matches today's state |
| HabitList.AllComplete | src/components/HabitList.tsx:22 | the banner flag means a non-empty list whose habits are all done today; without it, the list is empty or some habit is still pending |
| HabitList.AllCompleteIff | src/components/HabitList.tsx:22 | the banner shows exactly when the list is non-empty and every habit is done today |
| HabitList.Submit | src/components/HabitList.tsx:24-31 | a name is handed on exactly when the field has a non-whitespace character. The name is the trimmed text and the form resets. Otherwise the form is unchanged |
| HabitList.FirstFlags | src/components/HabitList.tsx:76-82 | one flag per card. At most one flag is set, and it is the first card's |
| HabitList.Undo | src/components/HabitList.tsx:123-128 | the habits are toggled by id, and the popup closes exactly when a single habit of the list was done today |
| HabitList.UndoClosesPopupIffLast | src/components/HabitList.tsx:123-128 | with unique ids, undoing a completed habit keeps the popup open exactly when some completed habit remains |
| HabitCard.Clamp | src/components/HabitCard.tsx:28 | the offset lies in [-100, 100]. It is the raw difference when that is in range, and the nearer bound otherwise |
| HabitCard.Step | src/components/HabitCard.tsx:19-37 | touch start records the start and begins a swipe. A move does nothing unless a swipe is in progress; during one, the offset becomes the distance moved, clamped to [-100, 100]. Touch end resets the offset and ends the swipe, and toggles exactly when the offset exceeds 50 in either direction. The offset stays in range |
| HabitCard.OneSwipe | src/components/HabitCard.tsx:19-37 | one touch, move and lift from the idle card toggles exactly once when the finger travelled more than 50 pixels either way, and not at all otherwise |
| HabitCard.RunInvariant | src/components/HabitCard.tsx:19-37 | over any event sequence, the offset stays within [-100, 100] and toggles happen at most once per touch end |
| HabitCard.StrayMovesIgnored | src/components/HabitCard.tsx:24-25 | moves without a swipe in progress leave the card unchanged and toggle nothing |
| Setup.AddHabit | src/components/Setup.tsx:29-35 | the trimmed name is appended and the field cleared exactly when the trimmed name is non-empty. Otherwise the form is unchanged |
| Setup.RemoveHabit | src/components/Setup.tsx:37-39 | exactly the element at the index is dropped and the others keep their order. An index out of range changes nothing |
| Setup.AddThenRemove | src/components/Setup.tsx:29-39 | removing the name just added restores the list |
| Setup.Complete | src/components/Setup.tsx:41-49 | data is emitted exactly when the trimmed user name is non-empty and a habit is listed. It carries the trimmed name and one habit per listed name, in order, with the supplied ids and times and no completions |
| Setup.ButtonDisabled | src/components/Setup.tsx:27 | the button is disabled exactly when the user name is blank (only whitespace) or no habit is listed |
| Setup.ButtonDisabledIff | src/components/Setup.tsx:27-42 | the button is disabled exactly when completing would emit nothing |
| AddFoodItem.NewForm | src/components/AddFoodItem.tsx:12-17 | the form opens with the given name, pieces as the unit, marked healthy, and no valid amount |
| AddFoodItem.Submit | src/components/AddFoodItem.tsx:27-46 | an item is emitted exactly when the trimmed name is non-empty and the amount is a positive number. The name is trimmed and the amount and unit copied. A trimmed serving description is present exactly for servings. The health score is 100 or 0 and reads as healthy exactly when marked healthy |
| AddFoodItem.OfferedUnits | src/components/AddFoodItem.tsx:48-55 | one unit per option |
| AddFoodItem.EveryUnitOfferedOnce | src/components/AddFoodItem.tsx:15-55 | every unit, the default included, is offered exactly once |
| FoodTracker.FindItem | src/components/FoodTracker.tsx:97-99 | a found item is in the catalogue and has the id, and it is the first item with that id. Nothing is found exactly when no item has it |
| FoodTracker.BumpUses | src/components/FoodTracker.tsx:122-126 | items with the id get one more use and the new last-used time. All others are unchanged |
| FoodTracker.DropUse | src/components/FoodTracker.tsx:155-159 | items with the id and a positive count lose one use. All others are unchanged |
| FoodTracker.QuickAdd | src/components/FoodTracker.tsx:113-133 | exactly one entry is appended, for the item with its default amount at "now". The use is recorded on that item only |
| FoodTracker.NewItem | src/components/FoodTracker.tsx:136-140 | the new item copies the draft, takes the fresh id, and starts unused |
| FoodTracker.AddNewItem | src/components/FoodTracker.tsx:135-148 | the new item is appended and the entries are untouched |
| FoodTracker.DeleteEntry | src/components/FoodTracker.tsx:150-166 | an unknown id changes nothing. Otherwise the entries keep their order minus those with the id, each other entry as many times as before, and the first such entry's item loses one use, never going below zero |
| FoodTracker.SaveEdit | src/components/FoodTracker.tsx:173-186 | a non-positive or `NaN` amount changes nothing. Otherwise only the amount of the entries with the id changes |
| FoodTracker.QuickAddKeepsCounts | src/components/FoodTracker.tsx:113-133 | quick-add keeps every use count equal to the number of entries referring to the item |
| FoodTracker.AddNewItemKeepsCounts | src/components/FoodTracker.tsx:135-148 | adding an item under an id no entry refers to keeps the counts equal |
| FoodTracker.SaveEditKeepsCounts | src/components/FoodTracker.tsx:173-182 | editing an amount keeps the counts equal |
| FoodTracker.RemoveById | src/components/FoodTracker.tsx:164 | with unique ids, filtering by one entry's id removes exactly that entry |
| FoodTracker.DeleteEntryKeepsCounts | src/components/FoodTracker.tsx:150-166 | with unique entry ids, deleting keeps the counts equal |
| FoodTracker.QuickAddThenDelete | src/components/FoodTracker.tsx:113-166 | logging a portion under a fresh entry id and deleting it restores the entries and every use count |
| FoodTracker.MutatorsKeepCountsNonNegative | src/components/FoodTracker.tsx:113-186 | none of the four mutators makes a use count negative |
| FoodTracker.Favorites | src/components/FoodTracker.tsx:57-62 | the first five of the used items, or all of them when fewer are used, drawn from the catalogue without repetition, in non-increasing order of use; items with the same use count keep their catalogue order |
| FoodTracker.FavoritesAreUsedItems | src/components/FoodTracker.tsx:57-62 | every favourite is a catalogue item with a positive use count |
| FoodTracker.FavoritesShowMostUsed | src/components/FoodTracker.tsx:57-62 | a used item is left out only when five favourites are shown, each used at least as often |
| FoodTracker.Resolve | src/components/FoodTracker.tsx:50-52 | at most one item per id, each in the catalogue and carrying one of the ids. Every id that has a catalogue item yields that item (the first with the id). Distinct ids give distinct items, listed in the order of their ids |
| FoodTracker.TimeSuggestions | src/components/FoodTracker.tsx:35-54 | at most three suggestions, all catalogue items |
| FoodTracker.SuggestionsDistinct | src/components/FoodTracker.tsx:49-53 | no item is suggested twice |
| FoodTracker.SuggestionFromYesterday | src/components/FoodTracker.tsx:40-53 | every suggestion was logged yesterday within an hour of the current hour (the lemma yields that entry) |
| FoodTracker.SuggestionsComplete | src/components/FoodTracker.tsx:35-54 | while fewer than three suggestions are shown, the item of every entry logged yesterday within an hour of the current hour, if still in the catalogue, is among them |
| FoodTracker.SuggestionsAreEarliest | src/components/FoodTracker.tsx:35-54 | when the catalogue item of a candidate id is left out, three are shown, and each shown item's id was first logged before the left-out one: the suggestions are the first three known items in entry order |
| FoodTracker.NearIsCandidate | src/components/FoodTracker.tsx:40-49 | every entry logged yesterday within an hour of the current hour makes its item id a candidate |
| FoodTracker.TodaysEntries | src/components/FoodTracker.tsx:73-77 | exactly today's entries as a multiset, newest first; entries logged at the same time keep their log order |
| FoodTracker.ByTimeOfDay | src/components/FoodTracker.tsx:73-94 | morning, afternoon and evening hold exactly the entries of today logged from 5 to 12 o'clock, from 12 to 17, and from 17 to 5, each part newest first, with entries logged at the same time in log order |
| FoodTracker.DayPartsPartition | src/components/FoodTracker.tsx:79-94 | morning, afternoon and evening split today's entries: the lengths and the multisets add up |
| FoodTracker.UnhealthyCount | src/components/FoodTracker.tsx:293-299 | never more than today's entries, and zero exactly when no entry of today refers to a catalogue item scoring below 50 |
| FoodTracker.HealthyShown | src/components/FoodTracker.tsx:292-306 | the "Healthy" figure is the number of today's entries whose item scores 50 or more or is no longer in the catalogue |
| FoodTracker.ShownCountsAddUp | src/components/FoodTracker.tsx:292-306 | the healthy and unhealthy figures add up to today's entries. "Healthy" counts today's entries whose item is healthy or missing |
| WeightTracker.NoteOf | src/components/WeightTracker.tsx:27 | no note exactly when the text is all whitespace. Otherwise the note is the trimmed text |
| WeightTracker.AddEntry | src/components/WeightTracker.tsx:16-39 | a non-positive or `NaN` weight changes nothing. Otherwise exactly one entry (weight, now, note) is appended after the old ones, it becomes the current weight, and the other fields are kept |
| WeightTracker.DeleteEntry | src/components/WeightTracker.tsx:41-56 | the entries keep their order minus those at the timestamp, each other entry as many times as before. The current weight is the last remaining entry's, or the start weight when none remains. The other fields are kept |
| WeightTracker.AddEntryKeepsLatest | src/components/WeightTracker.tsx:30-34 | adding preserves the invariant that the current weight is the last entry's |
| WeightTracker.DeleteAbsentIsNoOp | src/components/WeightTracker.tsx:41-56 | under the invariant, deleting an absent timestamp changes nothing |
| WeightTracker.AddThenDelete | src/components/WeightTracker.tsx:16-56 | under the invariant, logging under a new timestamp and deleting it restores the data |
| WeightTracker.WindowAverage | src/components/WeightTracker.tsx:74-80 | absent exactly when no entry falls in the window; otherwise the average times the number of entries in the window is their total weight (the mean) |
| WeightTracker.TwoWeighIns | src/components/WeightTracker.tsx:112-114 | weigh-ins of 80 and 79 in one window average 79.5 |
| WeightTracker.WindowAverageBounds | src/components/WeightTracker.tsx:74-80 | a window average lies between any bounds of the weights in the window |
| WeightTracker.LastWeekAverage | src/components/WeightTracker.tsx:68-76 | the mean weight of the entries of the last seven days (times their number it is their total), or the current weight when there is none |
| WeightTracker.PrevWeekAverage | src/components/WeightTracker.tsx:69-80 | the mean weight of the entries of the seven days before (times their number it is their total), or the start weight when there is none |
| WeightTracker.WeekAveragesBounded | src/components/WeightTracker.tsx:68-80 | both seven-day averages lie within any bounds of the logged weights and of their defaults |
| WeightTracker.ComputeStats | src/components/WeightTracker.tsx:59-85 | to-go plus lost equals start minus goal. To-go is at most 0 exactly when the goal is reached, and lost is positive exactly when below the start. The week change is last week's average (default: current weight) minus the previous week's (default: start weight) |
| WeightTracker.QuietFortnight | src/components/WeightTracker.tsx:63-82 | with no entry in the last fourteen days, the week change is the current weight minus the start weight |
| WeightTracker.Label | src/components/WeightTracker.tsx:118 | the label is `W` followed by the digit |
| WeightTracker.PrevWeekIsW3 | src/components/WeightTracker.tsx:64-111 | the previous-week average of the stats is the average of week W3, defaulting to the start weight |
| WeightTracker.UnshiftedRows | src/components/WeightTracker.tsx:104-122 | after n rounds, each row carries its week's label and average. The oldest row so far is not green, and every other row is green exactly when its average is below the next newer one's |
| WeightTracker.WeeklyAverages | src/components/WeightTracker.tsx:100-125 | four weeks, W1 (oldest) to W4, each holding the average of its window. W4 is never green, and any other week is green exactly when its average is below the next newer week's |
| WeightTracker.MonthSeries | src/components/WeightTracker.tsx:92-94 | exactly the entries of the last thirty days as a multiset, oldest first; entries logged at the same time keep their log order |
| WeightTracker.ChartDataAsWritten | src/components/WeightTracker.tsx:96 | the series as written: the entries of the last thirty days when there are any, otherwise the single point `entries[0]`, which is undefined for an empty log |
| WeightTracker.ChartOfEmptyLogIsUndefined | src/components/WeightTracker.tsx:96 | on an empty log, the series as written is one undefined point |
| WeightTracker.ChartData | src/components/WeightTracker.tsx:88-97 | the corrected series: the entries of the last thirty days when there are any, otherwise the first entry, and empty exactly for an empty log; it runs oldest first |
| WeightTracker.ChartDataAgrees | src/components/WeightTracker.tsx:96 | on a non-empty log, the corrected series equals the original point for point |
| WeightTracker.RecentEntries | src/components/WeightTracker.tsx:138 | the ten newest entries (or all), newest first |
| WeightSetup.Complete | src/components/WeightSetup.tsx:16-40 | data is produced exactly when both values are positive numbers. It is enabled, current and start weight are the current value, the goal is the goal value, the start date is the first clock reading, and there is one entry "Starting weight" stamped with the second. It satisfies the last-entry invariant |
| WeightSetup.ButtonDisabled | src/components/WeightSetup.tsx:14 | the button is disabled exactly when either field is blank (only whitespace) |
| WeightSetup.CompleteImpliesEnabled | src/components/WeightSetup.tsx:14-24 | if a blank field parses to `NaN`, a successful completion implies the button was enabled |
| WeightSetup.EnabledDoesNotImplyComplete | src/components/WeightSetup.tsx:14-24 | an enabled button does not guarantee completion: "-1" and "70" enable it, yet nothing is produced |
| Storage.FieldOr | src/utils/storage.ts:115-117 | `v.key \|\| fallback`: the field when it is truthy, the fallback otherwise |
| Storage.LoadData | src/utils/storage.ts:13-21 | null for nothing or the empty string stored, null when the text does not parse, and otherwise the parsed value |
| Storage.SaveThenLoad | src/utils/storage.ts:5-21 | if parse undoes stringify, loading what was saved gives it back |
| Storage.ImportLegacy | src/utils/storage.ts:50-64 | a read failure or unparseable text is rejected. Anything that parses is accepted as is, without a shape check |
| Storage.EnvelopeJson | src/utils/storage.ts:73-81 | the envelope is written as an object with exactly the five keys |
| Storage.ExportAll | src/utils/storage.ts:67-79 | version "1.0.0" and the export time are stamped. Habits, weight and food are copied verbatim |
| Storage.ImportAll | src/utils/storage.ts:98-128 | read failures, unparseable text and a parsed `null` are rejected, each with its own error. A value without a truthy version and habits is rejected as malformed. Otherwise version and habits are copied, falsy weight and food become null, and a falsy export time becomes the import time |
| Storage.ImportedIsNormalised | src/utils/storage.ts:112-118 | every accepted envelope has a truthy version, habits and export time, and weight and food are null or truthy |
| Storage.ImportIdempotent | src/utils/storage.ts:98-128 | re-importing an accepted envelope, once written out, accepts it unchanged |
| Storage.ExportImportRoundTrip | src/utils/storage.ts:67-128 | importing an exported envelope gives back the same habits, weight, food, version and time. This holds when parse undoes stringify, habits are truthy, and weight and food are objects or null |
| Storage.ExportWithoutHabitsRejected | src/utils/storage.ts:106-109 | an export made without habit data is rejected as malformed |
| Colors.Utf16 | src/utils/colors.ts:26 | at least one code unit per character, and none exactly for the empty string. A string with no character above U+FFFF gives one code unit per character, equal to its code point; a character above U+FFFF gives a high and a low surrogate that decode back to it |
| Colors.Utf16Append | src/utils/colors.ts:25-26 | the code units of a concatenation are the code units of the parts, one after the other |
| Colors.ToInt32 | src/utils/colors.ts:28 | the result lies in [-2^31, 2^31) and is congruent to the input modulo 2^32 |
| Colors.StepIsTimes31 | src/utils/colors.ts:27-28 | one round `(h << 5) - h + c`, then `& hash`, is the 32-bit wrap of `31h + c` |
| Colors.Hash32 | src/utils/colors.ts:24-29 | the loop's value is a signed 32-bit integer |
| Colors.Hash32IsPoly | src/utils/colors.ts:23-29 | the loop computes the polynomial hash of the code units modulo 2^32, as a signed 32-bit value |
| Colors.HashString | src/utils/colors.ts:23-31 | the loop returns the absolute value of the wrapped hash, at most 2^31, and 0 for the empty string |
| Colors.ColorIndex | src/utils/colors.ts:35 | the index is below the palette size, and 0 for the empty id |
| Colors.HabitColor | src/utils/colors.ts:34-37 | always a palette entry, the one at the index. The empty id gets the first |
| Colors.SameHashSameColor | src/utils/colors.ts:34-37 | ids with equal polynomial hash modulo 2^32 get the same colour |
| Text.TrimEmptyIff | src/components/HabitList.tsx:26 | `trim()` is empty exactly when every character is whitespace |
| Text.BeforeT | src/components/FoodTracker.tsx:41 | a prefix with no `T`, ending at the first `T` or at the end |
| Seqs.Dedup | src/components/FoodTracker.tsx:49 | distinct elements, the same members, and the input's order, each element placed by its first occurrence in the input |
| Seqs.SortDesc | src/components/FoodTracker.tsx:60 | a permutation of the input in non-increasing key order, and stable: elements with equal keys keep their input order |

## Left out

- The clock, time zones and date parsing: `new Date()`, `getHours`, `toISOString`, and the date helpers of `src/utils/date`. The date helpers are not part of this model. All of these are parameters, including the mix of UTC day keys and local hours in the food log.
- Fresh ids (`generateUUID`, `crypto.randomUUID`): they are parameters. Lemmas that need freshness assume it.
- `localStorage`, `FileReader`, Blob/URL downloads and console output, plus `weightStorage.ts` and `foodStorage.ts`, which only wrap storage and JSON. `JSON.parse` and `JSON.stringify` are function parameters. The typed records are not converted to and from `Json`.
- Floating point: weights are exact rationals, and `Math.round` is exact round-half-up. Also left out are `toFixed` formatting, chart scaling (`chartMinMax`) and polyline geometry, and the Calendar progress circle.
- Habits.RoundPercent: the percentage is computed exactly, so a float quotient that lands a hair below a half is not modelled.
- `parseFloat` is an input of type `Parsed`. Its text-to-number rules, and the infinities it can yield, are not modelled.
- Locale-dependent code: the name search and `localeCompare` sort of the catalogue, and date and time formatting.
- Rendering and UI-only state: JSX, the completed-popup visibility (apart from the undo rule), Calendar, ProgressBar, Settings, `useTheme`, mobile detection, the pass-through setters (`handleSetupComplete`, `handleWeightUpdate`, `handleWeightImport`, `handleFoodUpdate`, `handleFoodImport`), and `window.confirm`, which is a boolean input.
- Habits.TargetDay: the handlers always toggle with today's key, so the explicit-date path of `toggleHabitCompletion` is modelled but used only by Habits.ToggleHabitCompletion.
- FoodTracker.DeleteEntry: with duplicate entry ids, only the first entry's item loses a use while all entries with the id go. The count invariant is proved only for unique entry ids.
- FoodTracker.ShownCountsAddUp: an entry whose item was removed from the catalogue counts as healthy, exactly as in the source.
- Habits.ProgressFullIff: proved for fewer than 200 habits, and Habits.ProgressZeroIff for at most 200. Beyond these bounds, rounding makes both claims false (Habits.RoundingHidesStragglers).
- WeightSetup.ButtonDisabled: the button guards on blank text, completion on parsed values. The two differ, as WeightSetup.EnabledDoesNotImplyComplete shows.

## Findings

| source | as written | input that shows it | evidently intended | confidence | as-written member | corrected member |
|---|---|---|---|---|---|---|
| src/components/WeightTracker.tsx:96 | with no entry in the last thirty days, `chartData` falls back to `[data.entries[0]]`. That is `[undefined]` once the log is empty, and `chartMinMax` (line 131) then reads `.weight` of `undefined`. Its own empty-series branch (line 129) is never reached | delete every weight entry, so `entries == []` | fall back to the first entry only when there is one, so an empty log gives an empty series | not executed | WeightTracker.ChartOfEmptyLogIsUndefined | WeightTracker.ChartData |

=== FILE: add_food_item.dfy ===
/** The new-food-item form of src/components/AddFoodItem.tsx: validation and
    construction of the item handed to the food log. `parseFloat` of the
    amount field is an input. */
module AddFoodItem {
  import opened Wrappers
  import opened Text
  import opened Types

  /** A food item before the food log gives it an id and a use counter
      (`Omit<FoodItem, 'id' | 'lastUsedAt' | 'useCount'>`). */
  datatype ItemDraft = ItemDraft(
    name: string,
    defaultAmount: real,
    unit: FoodUnit,
    servingDescription: Option<string>,
    healthScore: int)

  /** The form fields, with the amount already run through `parseFloat`. */
  datatype Form = Form(name: string, amount: Parsed, unit: FoodUnit, servingDescription: string, isHealthy: bool)

  /** The form as opened: the given name, an empty amount, pieces, healthy. */
  function NewForm(initialName: string): (f: Form)
    ensures f.name == initialName && f.unit == Pcs && f.isHealthy && !IsPositive(f.amount)
  {
    Form(initialName, NaN, Pcs, "", true)
  }

  /** The classification the food log shows (`healthScore >= 50`). */
  predicate IsHealthyScore(score: int) {
    score >= 50
  }

  /** `handleSubmit`: the item to add, or nothing when the name is blank or the
      amount is not a positive number. */
  function Submit(f: Form): (r: Option<ItemDraft>)
    ensures r.Some? <==> Trim(f.name) != "" && IsPositive(f.amount)
    ensures r.Some? ==>
              && r.value.name == Trim(f.name) && r.value.name != ""
              && r.value.defaultAmount == f.amount.value && r.value.defaultAmount > 0.0
              && r.value.unit == f.unit
              && (r.value.servingDescription.Some? <==> f.unit == Serving)
              && (r.value.servingDescription.Some? ==> r.value.servingDescription.value == Trim(f.servingDescription))
              && (r.value.healthScore == 100 || r.value.healthScore == 0)
              && (IsHealthyScore(r.value.healthScore) <==> f.isHealthy)
  {
    if Trim(f.name) == "" || !IsPositive(f.amount) then None
    else Some(ItemDraft(
      Trim(f.name),
      f.amount.value,
      f.unit,
      if f.unit == Serving then Some(Trim(f.servingDescription)) else None,
      if f.isHealthy then 100 else 0))
  }

  /** The unit choices of the form, in display order. */
  const UnitOptions: seq<(FoodUnit, string)> := [
    (G, "Grams (g)"),
    (Kg, "Kilograms (kg)"),
    (Ml, "Milliliters (ml)"),
    (L, "Liters (L)"),
    (Pcs, "Pieces (pcs)"),
    (Serving, "Serving")
  ]

  /** The units the selector offers. */
  function OfferedUnits(): (r: seq<FoodUnit>)
    ensures |r| == |UnitOptions|
  {
    seq(|UnitOptions|, k requires 0 <= k < |UnitOptions| => UnitOptions[k].0)
  }

  /** Every unit is offered exactly once, the default among them. */
  lemma EveryUnitOfferedOnce()
    ensures forall u: FoodUnit :: u in OfferedUnits()
    ensures forall i, j :: 0 <= i < j < |OfferedUnits()| ==> OfferedUnits()[i] != OfferedUnits()[j]
    ensures NewForm("").unit in OfferedUnits()
  {
    var us := OfferedUnits();
    assert us == [G, Kg, Ml, L, Pcs, Serving];
    forall u: FoodUnit
      ensures u in us
    {
      match u
      case G => assert us[0] == u;
      case Kg => assert us[1] == u;
      case Ml => assert us[2] == u;
      case L => assert us[3] == u;
      case Pcs => assert us[4] == u;
      case Serving => assert us[5] == u;
    }
  }
}

=== FILE: app.dfy ===
/** The state-transition handlers of src/App.tsx. The application state holds
    the three data slots (habits, weight, food; each may be null) and the
    current view. `window.confirm` is a boolean input; fresh ids, clock
    readings and today's key are parameters. */
module App {
  import opened Wrappers
  import opened Seqs
  import opened Types
  import opened Habits

  datatype View = HabitsView | CalendarView | WeightView | FoodView | SettingsView

  datatype State = State(data: Option<AppData>, weight: Option<WeightData>, food: Option<FoodData>, view: View)

  /** No two habits share an id (ids are fresh UUIDs). */
  predicate UniqueIds(habits: seq<Habit>) {
    forall i, j :: 0 <= i < j < |habits| ==> habits[i].id != habits[j].id
  }

  /** The filter condition of the delete handler. */
  function OtherId(habitId: string): Habit -> bool {
    (h: Habit) => h.id != habitId
  }

  /** `handleAddHabit(name)`: appends one fresh habit; a no-op without data. */
  function AddHabit(s: State, name: string, id: string, createdAt: string): (r: State)
    ensures s.data.None? ==> r == s
    ensures s.data.Some? ==>
              && r.data.Some?
              && r.data.value.userName == s.data.value.userName
              && |r.data.value.habits| == |s.data.value.habits| + 1
              && r.data.value.habits[..|s.data.value.habits|] == s.data.value.habits
              && var h := r.data.value.habits[|s.data.value.habits|];
                 h.id == id && h.name == name && h.createdAt == createdAt && h.completions == []
    ensures r.weight == s.weight && r.food == s.food && r.view == s.view
  {
    match s.data
    case None => s
    case Some(d) =>
      var habits := d.habits + [CreateHabit(name, id, createdAt)];
      assert habits[..|d.habits|] == d.habits;
      s.(data := Some(d.(habits := habits)))
  }

  /** `habits.map(h => h.id === habitId ? toggleHabitCompletion(h) : h)`. */
  function ToggleById(habits: seq<Habit>, habitId: string, today: string): (r: seq<Habit>)
    ensures |r| == |habits|
    ensures forall i :: 0 <= i < |habits| && habits[i].id == habitId ==>
              r[i] == ToggleCompletion(habits[i], today)
    ensures forall i :: 0 <= i < |habits| && habits[i].id != habitId ==> r[i] == habits[i]
  {
    seq(|habits|, i requires 0 <= i < |habits| =>
      if habits[i].id == habitId then ToggleCompletion(habits[i], today) else habits[i])
  }

  /** `handleToggleHabit(habitId)`: toggles today's completion of the habits
      with that id; a no-op without data. */
  function ToggleHabit(s: State, habitId: string, today: string): (r: State)
    ensures s.data.None? ==> r == s
    ensures s.data.Some? ==>
              && r.data.Some?
              && r.data.value.userName == s.data.value.userName
              && r.data.value.habits == ToggleById(s.data.value.habits, habitId, today)
    ensures r.weight == s.weight && r.food == s.food && r.view == s.view
  {
    match s.data
    case None => s
    case Some(d) => s.(data := Some(d.(habits := ToggleById(d.habits, habitId, today))))
  }

  /** Toggling the same id twice is the identity when none of the habits with
      that id was done today. */
  lemma ToggleByIdTwice(habits: seq<Habit>, habitId: string, today: string)
    requires forall i :: 0 <= i < |habits| && habits[i].id == habitId ==> !IsCompletedOn(habits[i], today)
    ensures ToggleById(ToggleById(habits, habitId, today), habitId, today) == habits
  {
    var once := ToggleById(habits, habitId, today);
    var twice := ToggleById(once, habitId, today);
    forall i | 0 <= i < |habits|
      ensures twice[i] == habits[i]
    {
      if habits[i].id == habitId {
        ToggleTwiceRestores(habits[i], today);
      }
    }
  }

  /** `handleDeleteHabit(habitId)` with the answer of the confirmation dialog:
      when confirmed, removes exactly the habits with that id. */
  function DeleteHabit(s: State, habitId: string, confirmed: bool): (r: State)
    ensures s.data.None? || !confirmed ==> r == s
    ensures s.data.Some? && confirmed ==>
              && r.data.Some?
              && r.data.value.userName == s.data.value.userName
              && SubsequenceOf(r.data.value.habits, s.data.value.habits)
              && (forall h :: h in r.data.value.habits ==> h.id != habitId)
              && (forall h :: h in s.data.value.habits && h.id != habitId ==> h in r.data.value.habits)
              && (forall h: Habit :: h.id != habitId ==>
                    multiset(r.data.value.habits)[h] == multiset(s.data.value.habits)[h])
    ensures r.weight == s.weight && r.food == s.food && r.view == s.view
  {
    match s.data
    case None => s
    case Some(d) =>
      if confirmed then
        FilterIsSubsequence(d.habits, OtherId(habitId));
        FilterMembers(d.habits, OtherId(habitId));
        FilterCount(d.habits, OtherId(habitId));
        s.(data := Some(d.(habits := Filter(d.habits, OtherId(habitId)))))
      else s
  }

  /** Deleting a habit that was just added under a fresh id restores the state. */
  lemma AddThenDelete(s: State, name: string, id: string, createdAt: string)
    requires s.data.Some? ==> forall h :: h in s.data.value.habits ==> h.id != id
    ensures DeleteHabit(AddHabit(s, name, id, createdAt), id, true) == s
  {
    if s.data.Some? {
      var d := s.data.value;
      var h := CreateHabit(name, id, createdAt);
      var p := OtherId(id);
      var added := AddHabit(s, name, id, createdAt);
      assert added == s.(data := Some(d.(habits := d.habits + [h])));
      FilterAppend(d.habits, [h], p);
      assert forall k :: 0 <= k < |d.habits| ==> p(d.habits[k]) by {
        forall k | 0 <= k < |d.habits| ensures p(d.habits[k]) {
          assert d.habits[k] in d.habits;
        }
      }
      FilterKeepsAll(d.habits, p);
      assert Filter([h], p) == [];
      assert Filter(d.habits + [h], p) == d.habits;
    }
  }

  /** `handleImport(data)`: the legacy import replaces the habit data. */
  function Import(s: State, d: AppData): (r: State)
    ensures r.data == Some(d) && r.view == HabitsView
    ensures r.weight == s.weight && r.food == s.food
  {
    s.(data := Some(d), view := HabitsView)
  }

  /** `handleImportAll(backup)`: always replaces the habit data; replaces the
      weight and food data only when the backup carries them. */
  function ImportAll(s: State, b: UnifiedAppData): (r: State)
    ensures r.data == Some(b.habits) && r.view == HabitsView
    ensures r.weight == if b.weight.Some? then b.weight else s.weight
    ensures r.food == if b.food.Some? then b.food else s.food
  {
    var s1 := s.(data := Some(b.habits));
    var s2 := if b.weight.Some? then s1.(weight := b.weight) else s1;
    var s3 := if b.food.Some? then s2.(food := b.food) else s2;
    s3.(view := HabitsView)
  }

  /** Importing the same backup twice is the same as importing it once. */
  lemma ImportAllIdempotent(s: State, b: UnifiedAppData)
    ensures ImportAll(ImportAll(s, b), b) == ImportAll(s, b)
  {
  }

  /** `handleClearAll()`: drops the habit data only. */
  function ClearAll(s: State): (r: State)
    ensures r.data.None? && r.view == HabitsView
    ensures r.weight == s.weight && r.food == s.food
  {
    s.(data := None, view := HabitsView)
  }

  /** `handleWeightToggle(enabled)`: switching on only opens the weight view;
      switching off clears the `enabled` flag of existing weight data. */
  function WeightToggle(s: State, enabled: bool): (r: State)
    ensures enabled ==> r == s.(view := WeightView)
    ensures !enabled ==> r.data == s.data && r.food == s.food && r.view == s.view
    ensures !enabled && s.weight.None? ==> r.weight.None?
    ensures !enabled && s.weight.Some? ==>
              r.weight.Some? && !r.weight.value.enabled
              && r.weight.value.(enabled := s.weight.value.enabled) == s.weight.value
  {
    if enabled then s.(view := WeightView)
    else match s.weight
      case None => s
      case Some(w) => s.(weight := Some(w.(enabled := false)))
  }

  /** `handleWeightClear()`: drops the weight data only. */
  function WeightClear(s: State): (r: State)
    ensures r.weight.None?
    ensures r.data == s.data && r.food == s.food && r.view == s.view
  {
    s.(weight := None)
  }

  /** `handleFoodToggle(enabled)`: switching on starts an empty, enabled food
      log and opens the food view; switching off clears the `enabled` flag of
      existing food data. */
  function FoodToggle(s: State, enabled: bool): (r: State)
    ensures enabled ==> r.food == Some(FoodData(true, [], [])) && r.view == FoodView
    ensures r.data == s.data && r.weight == s.weight
    ensures !enabled ==> r.view == s.view
    ensures !enabled && s.food.None? ==> r.food.None?
    ensures !enabled && s.food.Some? ==>
              r.food.Some? && !r.food.value.enabled
              && r.food.value.(enabled := s.food.value.enabled) == s.food.value
  {
    if enabled then s.(food := Some(FoodData(true, [], [])), view := FoodView)
    else match s.food
      case None => s
      case Some(f) => s.(food := Some(f.(enabled := false)))
  }

  /** Switching a tracker off twice is the same as switching it off once. */
  lemma DisableIdempotent(s: State)
    ensures WeightToggle(WeightToggle(s, false), false) == WeightToggle(s, false)
    ensures FoodToggle(FoodToggle(s, false), false) == FoodToggle(s, false)
  {
  }

  /** `handleFoodClear()`: drops the food data only. */
  function FoodClear(s: State): (r: State)
    ensures r.food.None?
    ensures r.data == s.data && r.weight == s.weight && r.view == s.view
  {
    s.(food := None)
  }
}

=== FILE: colors.dfy ===
/** The habit-card colour of src/utils/colors.ts: a 32-bit wrapping string
    hash over UTF-16 code units, made non-negative and reduced modulo the
    17-entry pastel palette. JavaScript numbers are exact here (every
    intermediate value stays below 2^53), so only the 32-bit conversions
    need writing out. */
module Colors {

  const TwoTo31: int := 0x8000_0000
  const TwoTo32: int := 0x1_0000_0000

  /** A UTF-16 code unit, what `charCodeAt` returns. */
  type CodeUnit = x: int | 0 <= x < 0x1_0000

  /** The code units of a string, as `charCodeAt` reads them: characters
      above U+FFFF become a surrogate pair. */
  function Utf16(s: string): (r: seq<CodeUnit>)
    ensures |r| >= |s|
    ensures s == [] <==> r == []
    ensures (forall i :: 0 <= i < |s| ==> (s[i] as int) < 0x1_0000) ==>
              |r| == |s| && forall i :: 0 <= i < |s| ==> r[i] == s[i] as int
    ensures |s| == 1 && s[0] as int >= 0x1_0000 ==>
              && |r| == 2
              && 0xD800 <= r[0] < 0xDC00 && 0xDC00 <= r[1] < 0xE000
              && 0x1_0000 + (r[0] as int - 0xD800) * 0x400 + (r[1] as int - 0xDC00) == s[0] as int
  {
    if s == [] then []
    else
      var c := s[0] as int;
      var head: seq<CodeUnit> :=
        if c < 0x1_0000 then [c]
        else [0xD800 + (c - 0x1_0000) / 0x400, 0xDC00 + (c - 0x1_0000) % 0x400];
      head + Utf16(s[1..])
  }

  /** The code units of a concatenation are those of its parts, one after
      the other. */
  lemma {:induction false} Utf16Append(a: string, b: string)
    ensures Utf16(a + b) == Utf16(a) + Utf16(b)
  {
    if a != [] {
      assert (a + b)[0] == a[0] && (a + b)[1..] == a[1..] + b;
      Utf16Append(a[1..], b);
    } else {
      assert a + b == b;
    }
  }

  /** ECMAScript ToInt32: the integer congruent to `x` modulo 2^32 in
      `[-2^31, 2^31)`. */
  function ToInt32(x: int): (r: int)
    ensures -TwoTo31 <= r < TwoTo31
    ensures (x - r) % TwoTo32 == 0
  {
    var m := x % TwoTo32;
    if m >= TwoTo31 then m - TwoTo32 else m
  }

  /** ToInt32 only depends on its argument modulo 2^32. */
  lemma ToInt32Shift(x: int, k: int)
    ensures ToInt32(x + k * TwoTo32) == ToInt32(x)
  {
    assert (x + k * TwoTo32) % TwoTo32 == x % TwoTo32;
  }

  /** Arguments congruent modulo 2^32 give the same signed 32-bit value. */
  lemma ToInt32Congruent(x: int, y: int)
    requires x % TwoTo32 == y % TwoTo32
    ensures ToInt32(x) == ToInt32(y)
  {
  }

  /** `h << 5`: ToInt32 of the operand, shifted, and ToInt32 again. */
  function ShiftLeft5(h: int): int {
    ToInt32(ToInt32(h) * 32)
  }

  /** One round of the loop as written: `hash = (hash << 5) - hash + char`
      then `hash = hash & hash`, which is ToInt32 of that sum. */
  function Step(h: int, c: CodeUnit): int {
    ToInt32(ShiftLeft5(h) - h + c)
  }

  /** The round is the familiar `31 * hash + char`, wrapped to 32 bits. */
  lemma StepIsTimes31(h: int, c: CodeUnit)
    requires -TwoTo31 <= h < TwoTo31
    ensures Step(h, c) == ToInt32(31 * h + c)
  {
    var s := ToInt32(h * 32);
    var k := (h * 32 - s) / TwoTo32;
    assert s == h * 32 - k * TwoTo32;
    assert ShiftLeft5(h) - h + c == 31 * h + c + (-k) * TwoTo32;
    ToInt32Shift(31 * h + c, -k);
  }

  /** The hash after the loop has read all of `units`, before `Math.abs`. */
  function Hash32(units: seq<CodeUnit>): (r: int)
    ensures -TwoTo31 <= r < TwoTo31
  {
    if units == [] then 0 else Step(Hash32(units[..|units| - 1]), units[|units| - 1])
  }

  /** The polynomial the hash computes, without wrapping:
      `sum of units[i] * 31^(n - 1 - i)`. */
  function Poly(units: seq<CodeUnit>): int {
    if units == [] then 0 else 31 * Poly(units[..|units| - 1]) + units[|units| - 1]
  }

  /** The loop computes the polynomial hash of the code units modulo 2^32,
      read as a signed 32-bit integer. */
  lemma {:induction false} Hash32IsPoly(units: seq<CodeUnit>)
    ensures Hash32(units) == ToInt32(Poly(units))
  {
    if units != [] {
      var init, c := units[..|units| - 1], units[|units| - 1];
      Hash32IsPoly(init);
      var h := Hash32(init);
      StepIsTimes31(h, c);
      var k := (Poly(init) - h) / TwoTo32;
      assert h == Poly(init) - k * TwoTo32;
      assert 31 * h + c == 31 * Poly(init) + c + (-31 * k) * TwoTo32;
      ToInt32Shift(31 * Poly(init) + c, -31 * k);
    }
  }

  /** `Math.abs(hash)`. */
  function Abs(x: int): nat {
    if x < 0 then -x else x
  }

  /** `hashString(str)`, written as the loop of the source. */
  method HashString(units: seq<CodeUnit>) returns (r: nat)
    ensures r <= TwoTo31
    ensures r == Abs(Hash32(units))
    ensures units == [] ==> r == 0
  {
    var hash := 0;
    var i := 0;
    while i < |units|
      invariant 0 <= i <= |units|
      invariant hash == Hash32(units[..i])
    {
      assert units[..i + 1][..i] == units[..i];
      hash := ToInt32(ShiftLeft5(hash) - hash + units[i]);
      i := i + 1;
    }
    assert units[..|units|] == units;
    r := Abs(hash);
  }

  /** `PASTEL_COLORS`. */
  const PastelColors: seq<string> := [
    "bg-red-50 border-red-100",
    "bg-orange-50 border-orange-100",
    "bg-amber-50 border-amber-100",
    "bg-yellow-50 border-yellow-100",
    "bg-lime-50 border-lime-100",
    "bg-green-50 border-green-100",
    "bg-emerald-50 border-emerald-100",
    "bg-teal-50 border-teal-100",
    "bg-cyan-50 border-cyan-100",
    "bg-sky-50 border-sky-100",
    "bg-blue-50 border-blue-100",
    "bg-indigo-50 border-indigo-100",
    "bg-violet-50 border-violet-100",
    "bg-purple-50 border-purple-100",
    "bg-fuchsia-50 border-fuchsia-100",
    "bg-pink-50 border-pink-100",
    "bg-rose-50 border-rose-100"
  ]

  /** The palette slot of an id: `hashString(id) % PASTEL_COLORS.length`. */
  function ColorIndex(id: string): (r: nat)
    ensures r < |PastelColors|
    ensures id == [] ==> r == 0
  {
    Abs(Hash32(Utf16(id))) % |PastelColors|
  }

  /** `getHabitColor(id)`: always one of the palette's classes; the empty id
      gets the first. */
  function HabitColor(id: string): (r: string)
    ensures r in PastelColors
    ensures r == PastelColors[ColorIndex(id)]
    ensures id == [] ==> r == "bg-red-50 border-red-100"
  {
    PastelColors[ColorIndex(id)]
  }

  /** Two ids whose code units give the same polynomial hash modulo 2^32 get
      the same colour. */
  lemma SameHashSameColor(a: string, b: string)
    requires Poly(Utf16(a)) % TwoTo32 == Poly(Utf16(b)) % TwoTo32
    ensures HabitColor(a) == HabitColor(b)
  {
    Hash32IsPoly(Utf16(a));
    Hash32IsPoly(Utf16(b));
    assert Hash32(Utf16(a)) == Hash32(Utf16(b)) by {
      ToInt32Congruent(Poly(Utf16(a)), Poly(Utf16(b)));
    }
    assert ColorIndex(a) == ColorIndex(b);
  }
}

=== FILE: food_tracker.dfy ===
/** The food log of src/components/FoodTracker.tsx: the mutators that keep
    every item's `useCount` in step with the entries referring to it, and the
    derived views (favourites, suggestions from yesterday, today's entries by
    time of day, healthy/unhealthy counts). Fresh ids, "now", today's and
    yesterday's day keys, the current hour and the clock readings of stored
    timestamps (`at`: milliseconds, `hourOf`: local hour) are parameters. */
module FoodTracker {
  import opened Wrappers
  import opened Text
  import opened Seqs
  import opened Types
  import opened AddFoodItem

  // ---------------------------------------------------------------- lookups

  function HasItemId(id: string): FoodItem -> bool {
    (it: FoodItem) => it.id == id
  }

  /** `data.foodItems.find(item => item.id === id)`. */
  function FindItem(items: seq<FoodItem>, id: string): (r: Option<FoodItem>)
    ensures r.Some? ==> r.value in items && r.value.id == id
    ensures r.None? ==> forall x :: x in items ==> x.id != id
    ensures forall k ::
              0 <= k < |items| && items[k].id == id && (forall j :: 0 <= j < k ==> items[j].id != id)
              ==> r == Some(items[k])
  {
    match FindFirst(items, HasItemId(id))
    case Some(k) => Some(items[k])
    case None =>
      assert forall x :: x in items ==> x.id != id by {
        forall x | x in items ensures x.id != id {
          var k :| 0 <= k < |items| && items[k] == x;
          assert !HasItemId(id)(items[k]);
        }
      }
      None
  }

  function EntryWithId(id: string): FoodEntry -> bool {
    (e: FoodEntry) => e.id == id
  }

  function OtherEntry(id: string): FoodEntry -> bool {
    (e: FoodEntry) => e.id != id
  }

  // --------------------------------------------------------------- mutators

  /** Records one more use, now, on every item with the given id. */
  function BumpUses(items: seq<FoodItem>, itemId: string, now: string): (r: seq<FoodItem>)
    ensures |r| == |items|
    ensures forall k :: 0 <= k < |items| && items[k].id == itemId ==>
              r[k] == items[k].(useCount := items[k].useCount + 1, lastUsedAt := Some(now))
    ensures forall k :: 0 <= k < |items| && items[k].id != itemId ==> r[k] == items[k]
  {
    seq(|items|, k requires 0 <= k < |items| =>
      var it := items[k];
      if it.id == itemId then it.(useCount := it.useCount + 1, lastUsedAt := Some(now)) else it)
  }

  /** Takes one use off every item with the given id whose count is positive. */
  function DropUse(items: seq<FoodItem>, itemId: string): (r: seq<FoodItem>)
    ensures |r| == |items|
    ensures forall k :: 0 <= k < |items| && items[k].id == itemId && items[k].useCount > 0 ==>
              r[k] == items[k].(useCount := items[k].useCount - 1)
    ensures forall k :: 0 <= k < |items| && !(items[k].id == itemId && items[k].useCount > 0) ==>
              r[k] == items[k]
  {
    seq(|items|, k requires 0 <= k < |items| =>
      var it := items[k];
      if it.id == itemId && it.useCount > 0 then it.(useCount := it.useCount - 1) else it)
  }

  /** `handleQuickAdd(item)`: logs one default portion of the item now and
      records the use on the item. */
  function QuickAdd(d: FoodData, item: FoodItem, entryId: string, now: string): (r: FoodData)
    ensures r.enabled == d.enabled
    ensures r.entries == d.entries + [FoodEntry(entryId, item.id, item.defaultAmount, now, None)]
    ensures r.foodItems == BumpUses(d.foodItems, item.id, now)
  {
    d.(foodItems := BumpUses(d.foodItems, item.id, now),
       entries := d.entries + [FoodEntry(entryId, item.id, item.defaultAmount, now, None)])
  }

  /** The item `handleAddNewItem` builds from a submitted draft. */
  function NewItem(draft: ItemDraft, id: string): (it: FoodItem)
    ensures it.id == id && it.useCount == 0 && it.lastUsedAt.None?
    ensures it.name == draft.name && it.defaultAmount == draft.defaultAmount && it.unit == draft.unit
    ensures it.servingDescription == draft.servingDescription && it.healthScore == draft.healthScore
  {
    FoodItem(id, draft.name, draft.defaultAmount, draft.unit, draft.servingDescription, draft.healthScore, None, 0)
  }

  /** `handleAddNewItem(draft)`: appends a new, unused item. */
  function AddNewItem(d: FoodData, draft: ItemDraft, id: string): (r: FoodData)
    ensures r.enabled == d.enabled && r.entries == d.entries
    ensures r.foodItems == d.foodItems + [NewItem(draft, id)]
  {
    d.(foodItems := d.foodItems + [NewItem(draft, id)])
  }

  /** `handleDeleteEntry(entryId)`: removes the entry and takes one use off the
      item it refers to, never below zero. An unknown id changes nothing. */
  function DeleteEntry(d: FoodData, entryId: string): (r: FoodData)
    ensures (forall e :: e in d.entries ==> e.id != entryId) ==> r == d
    ensures r.enabled == d.enabled
    ensures SubsequenceOf(r.entries, d.entries)
    ensures forall e :: e in r.entries ==> e.id != entryId
    ensures forall e :: e in d.entries && e.id != entryId ==> e in r.entries
    ensures forall e: FoodEntry :: e.id != entryId ==> multiset(r.entries)[e] == multiset(d.entries)[e]
    ensures match FindFirst(d.entries, EntryWithId(entryId))
            case Some(k) => r.foodItems == DropUse(d.foodItems, d.entries[k].foodItemId)
            case None => r == d
  {
    match FindFirst(d.entries, EntryWithId(entryId))
    case None =>
      assert forall e :: e in d.entries ==> e.id != entryId by {
        forall e | e in d.entries ensures e.id != entryId {
          var k :| 0 <= k < |d.entries| && d.entries[k] == e;
          assert !EntryWithId(entryId)(d.entries[k]);
        }
      }
      SubsequenceOfSelf(d.entries);
      d
    case Some(k) =>
      FilterIsSubsequence(d.entries, OtherEntry(entryId));
      FilterMembers(d.entries, OtherEntry(entryId));
      FilterCount(d.entries, OtherEntry(entryId));
      d.(foodItems := DropUse(d.foodItems, d.entries[k].foodItemId),
         entries := Filter(d.entries, OtherEntry(entryId)))
  }

  /** `handleSaveEdit(entryId)`: sets the amount of the entry when the edited
      amount is a positive number; otherwise nothing changes. */
  function SaveEdit(d: FoodData, entryId: string, amount: Parsed): (r: FoodData)
    ensures !IsPositive(amount) ==> r == d
    ensures IsPositive(amount) ==>
              && r.enabled == d.enabled && r.foodItems == d.foodItems
              && |r.entries| == |d.entries|
              && (forall k :: 0 <= k < |d.entries| && d.entries[k].id == entryId ==>
                    r.entries[k] == d.entries[k].(amount := amount.value))
              && (forall k :: 0 <= k < |d.entries| && d.entries[k].id != entryId ==>
                    r.entries[k] == d.entries[k])
  {
    if !IsPositive(amount) then d
    else
      d.(entries := seq(|d.entries|, k requires 0 <= k < |d.entries| =>
        if d.entries[k].id == entryId then d.entries[k].(amount := amount.value) else d.entries[k]))
  }

  // ----------------------------------------------------- use-count invariant

  function RefersTo(itemId: string): FoodEntry -> bool {
    (e: FoodEntry) => e.foodItemId == itemId
  }

  /** How many entries refer to the item. */
  function CountRefs(entries: seq<FoodEntry>, itemId: string): nat {
    |Filter(entries, RefersTo(itemId))|
  }

  /** Every item's `useCount` is the number of entries logged for it. */
  ghost predicate UseCountsMatch(d: FoodData) {
    forall k :: 0 <= k < |d.foodItems| ==> d.foodItems[k].useCount == CountRefs(d.entries, d.foodItems[k].id)
  }

  /** Entry ids are unique (they are fresh UUIDs). */
  ghost predicate UniqueEntryIds(d: FoodData) {
    forall i, j :: 0 <= i < j < |d.entries| ==> d.entries[i].id != d.entries[j].id
  }

  /** No `useCount` is negative. */
  ghost predicate CountsNonNegative(d: FoodData) {
    forall k :: 0 <= k < |d.foodItems| ==> d.foodItems[k].useCount >= 0
  }

  /** Quick-add keeps every use count equal to the number of its entries. */
  lemma QuickAddKeepsCounts(d: FoodData, item: FoodItem, entryId: string, now: string)
    requires UseCountsMatch(d)
    ensures UseCountsMatch(QuickAdd(d, item, entryId, now))
  {
    var r := QuickAdd(d, item, entryId, now);
    var added := FoodEntry(entryId, item.id, item.defaultAmount, now, None);
    forall k | 0 <= k < |r.foodItems|
      ensures r.foodItems[k].useCount == CountRefs(r.entries, r.foodItems[k].id)
    {
      FilterAppend(d.entries, [added], RefersTo(d.foodItems[k].id));
    }
  }

  /** Adding an item under an id no entry refers to keeps the counts right. */
  lemma AddNewItemKeepsCounts(d: FoodData, draft: ItemDraft, id: string)
    requires UseCountsMatch(d)
    requires forall e :: e in d.entries ==> e.foodItemId != id
    ensures UseCountsMatch(AddNewItem(d, draft, id))
  {
    forall k | 0 <= k < |d.entries| ensures !RefersTo(id)(d.entries[k]) {
      assert d.entries[k] in d.entries;
    }
    FilterKeepsNone(d.entries, RefersTo(id));
  }

  /** Entries that refer to the same items, position by position, give the same counts. */
  lemma {:induction false} SameRefs(a: seq<FoodEntry>, b: seq<FoodEntry>, itemId: string)
    requires |a| == |b|
    requires forall k :: 0 <= k < |a| ==> a[k].foodItemId == b[k].foodItemId
    ensures CountRefs(a, itemId) == CountRefs(b, itemId)
  {
    if a != [] {
      SameRefs(a[1..], b[1..], itemId);
    }
  }

  /** Editing an amount keeps the counts right. */
  lemma SaveEditKeepsCounts(d: FoodData, entryId: string, amount: Parsed)
    requires UseCountsMatch(d)
    ensures UseCountsMatch(SaveEdit(d, entryId, amount))
  {
    var r := SaveEdit(d, entryId, amount);
    forall k | 0 <= k < |r.foodItems|
      ensures r.foodItems[k].useCount == CountRefs(r.entries, r.foodItems[k].id)
    {
      SameRefs(d.entries, r.entries, r.foodItems[k].id);
    }
  }

  /** With unique ids, removing entry `k` by id removes exactly that entry. */
  lemma RemoveById(es: seq<FoodEntry>, k: nat)
    requires k < |es|
    requires forall i, j :: 0 <= i < j < |es| ==> es[i].id != es[j].id
    ensures Filter(es, OtherEntry(es[k].id)) == es[..k] + es[k + 1..]
  {
    var p := OtherEntry(es[k].id);
    forall i | 0 <= i < |es| && i != k ensures p(es[i]) {
      if i < k {
        assert es[i].id != es[k].id;
      } else {
        assert es[k].id != es[i].id;
      }
    }
    FilterRemovesOne(es, k, p);
  }

  /** Count of references after removing entry `k`. */
  lemma CountAfterRemove(es: seq<FoodEntry>, k: nat, itemId: string)
    requires k < |es|
    ensures CountRefs(es[..k] + es[k + 1..], itemId) + (if es[k].foodItemId == itemId then 1 else 0)
            == CountRefs(es, itemId)
  {
    var p := RefersTo(itemId);
    assert es == es[..k] + ([es[k]] + es[k + 1..]);
    FilterAppend(es[..k], [es[k]] + es[k + 1..], p);
    FilterAppend([es[k]], es[k + 1..], p);
    FilterAppend(es[..k], es[k + 1..], p);
  }

  /** With unique entry ids, deleting an entry keeps the counts right. */
  lemma DeleteEntryKeepsCounts(d: FoodData, entryId: string)
    requires UseCountsMatch(d) && UniqueEntryIds(d)
    ensures UseCountsMatch(DeleteEntry(d, entryId))
  {
    match FindFirst(d.entries, EntryWithId(entryId))
    case None =>
    case Some(k) =>
      var r := DeleteEntry(d, entryId);
      var target := d.entries[k];
      RemoveById(d.entries, k);
      assert r.entries == d.entries[..k] + d.entries[k + 1..];
      forall j | 0 <= j < |r.foodItems|
        ensures r.foodItems[j].useCount == CountRefs(r.entries, r.foodItems[j].id)
      {
        CountAfterRemove(d.entries, k, d.foodItems[j].id);
      }
  }

  /** The entry appended under a fresh id is the first with that id. */
  lemma FreshEntryFoundLast(es: seq<FoodEntry>, added: FoodEntry)
    requires forall e :: e in es ==> e.id != added.id
    ensures FindFirst(es + [added], EntryWithId(added.id)) == Some(|es|)
  {
    var found := FindFirst(es + [added], EntryWithId(added.id));
    assert (es + [added])[|es|] == added;
  }

  /** Removing a freshly appended entry by id gives back the old entries. */
  lemma FreshEntryFiltered(es: seq<FoodEntry>, added: FoodEntry)
    requires forall e :: e in es ==> e.id != added.id
    ensures Filter(es + [added], OtherEntry(added.id)) == es
  {
    var p := OtherEntry(added.id);
    forall i | 0 <= i < |es| ensures p(es[i]) {
      assert es[i] in es;
    }
    FilterRemovesOne(es + [added], |es|, p);
    assert (es + [added])[..|es|] == es;
  }

  /** Dropping a use right after recording one restores every count, as
      long as none was negative. */
  lemma DropAfterBump(items: seq<FoodItem>, itemId: string, now: string)
    requires forall k :: 0 <= k < |items| ==> items[k].useCount >= 0
    ensures var r := DropUse(BumpUses(items, itemId, now), itemId);
            |r| == |items| && forall k :: 0 <= k < |items| ==> r[k].useCount == items[k].useCount
  {
  }

  /** Logging a portion under a fresh entry id and deleting it again restores
      the entries and every item's use count. */
  lemma QuickAddThenDelete(d: FoodData, item: FoodItem, entryId: string, now: string)
    requires forall e :: e in d.entries ==> e.id != entryId
    requires CountsNonNegative(d)
    ensures var r := DeleteEntry(QuickAdd(d, item, entryId, now), entryId);
            && r.entries == d.entries
            && |r.foodItems| == |d.foodItems|
            && forall k :: 0 <= k < |d.foodItems| ==> r.foodItems[k].useCount == d.foodItems[k].useCount
  {
    var added := FoodEntry(entryId, item.id, item.defaultAmount, now, None);
    FreshEntryFoundLast(d.entries, added);
    FreshEntryFiltered(d.entries, added);
    DropAfterBump(d.foodItems, item.id, now);
  }

  /** None of the mutators drives a use count below zero. */
  lemma MutatorsKeepCountsNonNegative(d: FoodData, item: FoodItem, draft: ItemDraft, entryId: string,
                                      id: string, now: string, amount: Parsed)
    requires CountsNonNegative(d)
    ensures CountsNonNegative(QuickAdd(d, item, entryId, now))
    ensures CountsNonNegative(AddNewItem(d, draft, id))
    ensures CountsNonNegative(DeleteEntry(d, entryId))
    ensures CountsNonNegative(SaveEdit(d, entryId, amount))
  {
  }

  // ------------------------------------------------------------------ views

  function UseCountKey(): FoodItem -> int {
    (it: FoodItem) => it.useCount
  }

  function IsUsed(): FoodItem -> bool {
    (it: FoodItem) => it.useCount > 0
  }

  /** `favorites`: up to five used items, most used first. */
  function Favorites(items: seq<FoodItem>): (r: seq<FoodItem>)
    ensures |r| == if |Filter(items, IsUsed())| < 5 then |Filter(items, IsUsed())| else 5
    ensures multiset(r) <= multiset(Filter(items, IsUsed()))
    ensures forall i, j :: 0 <= i < j < |r| ==> r[i].useCount >= r[j].useCount
    ensures forall v :: Filter(r, KeyIs(UseCountKey(), v)) <= Filter(Filter(items, IsUsed()), KeyIs(UseCountKey(), v))
  {
    var used := Filter(items, IsUsed());
    var sorted := SortDesc(used, UseCountKey());
    assert forall i, j :: 0 <= i < j < |sorted| ==> UseCountKey()(sorted[i]) >= UseCountKey()(sorted[j]);
    TakeSubMultiset(sorted, 5);
    TakeTies(sorted, used, 5, UseCountKey());
    Take(sorted, 5)
  }

  /** Every favourite is a used item of the catalogue. */
  lemma FavoritesAreUsedItems(items: seq<FoodItem>)
    ensures forall x :: x in Favorites(items) ==> x in items && x.useCount > 0
  {
    var used := Filter(items, IsUsed());
    FilterMembers(items, IsUsed());
    forall x | x in Favorites(items) ensures x in items && x.useCount > 0 {
      assert x in multiset(SortDesc(used, UseCountKey()));
    }
  }

  /** No used item is left out while a less used one is shown: an omitted
      used item means five favourites, each used at least as often. */
  lemma FavoritesShowMostUsed(items: seq<FoodItem>, x: FoodItem)
    requires x in items && x.useCount > 0 && x !in Favorites(items)
    ensures |Favorites(items)| == 5
    ensures forall i :: 0 <= i < 5 ==> Favorites(items)[i].useCount >= x.useCount
  {
    var sorted := SortDesc(Filter(items, IsUsed()), UseCountKey());
    FilterMembers(items, IsUsed());
    assert x in multiset(sorted);
    TakeSortedTop(sorted, UseCountKey(), 5, x);
  }

  function Abs(x: int): nat {
    if x < 0 then -x else x
  }

  /** The suggestion filter: logged yesterday within an hour of the current hour. */
  function NearThisHourYesterday(yesterday: string, currentHour: int, hourOf: string -> int): FoodEntry -> bool {
    (e: FoodEntry) => BeforeT(e.timestamp) == yesterday && Abs(hourOf(e.timestamp) - currentHour) <= 1
  }

  /** `entries.map(e => e.foodItemId)`. */
  function ItemIds(es: seq<FoodEntry>): (r: seq<string>)
    ensures |r| == |es| && forall i :: 0 <= i < |es| ==> r[i] == es[i].foodItemId
  {
    seq(|es|, i requires 0 <= i < |es| => es[i].foodItemId)
  }

  /** No two items share an id. */
  predicate DistinctIds(xs: seq<FoodItem>) {
    forall i, j :: 0 <= i < j < |xs| ==> xs[i].id != xs[j].id
  }

  /** The items carry ids from `ids`, listed in the order of those ids. */
  predicate FollowsIds(xs: seq<FoodItem>, ids: seq<string>) {
    (forall x :: x in xs ==> x.id in ids)
    && forall i, j :: 0 <= i < j < |xs| ==> IndexOf(ids, xs[i].id) < IndexOf(ids, xs[j].id)
  }

  /** `ids.map(find).filter(item => item !== undefined)`. */
  function Resolve(ids: seq<string>, items: seq<FoodItem>): (r: seq<FoodItem>)
    ensures |r| <= |ids|
    ensures forall x :: x in r ==> x in items && x.id in ids
    ensures forall id :: id in ids && FindItem(items, id).Some? ==> FindItem(items, id).value in r
    ensures Distinct(ids) ==> DistinctIds(r)
    ensures Distinct(ids) ==> FollowsIds(r, ids)
  {
    if ids == [] then []
    else
      var rest := Resolve(ids[1..], items);
      assert Distinct(ids) ==> Distinct(ids[1..]);
      match FindItem(items, ids[0])
      case Some(it) =>
        assert Distinct(ids) ==> forall x :: x in rest ==> x.id != ids[0];
        var r := [it] + rest;
        assert r[1..] == rest;
        assert Distinct(ids) ==> FollowsIds(r, ids) by {
          if Distinct(ids) {
            FollowsIdsTail(rest, ids);
            ConsFollowsIds(it, rest, ids);
          }
        }
        r
      case None =>
        assert Distinct(ids) ==> FollowsIds(rest, ids) by {
          if Distinct(ids) {
            FollowsIdsTail(rest, ids);
          }
        }
        rest
  }

  /** Items in the order of the ids after the first, none carrying the first
      id, are in the order of all the ids. */
  lemma FollowsIdsTail(rest: seq<FoodItem>, ids: seq<string>)
    requires |ids| > 0 && FollowsIds(rest, ids[1..])
    requires forall x :: x in rest ==> x.id != ids[0]
    ensures FollowsIds(rest, ids)
  {
    forall i, j | 0 <= i < j < |rest| ensures IndexOf(ids, rest[i].id) < IndexOf(ids, rest[j].id) {
      assert rest[i] in rest && rest[j] in rest;
    }
  }

  /** The item of the first id goes in front. */
  lemma ConsFollowsIds(it: FoodItem, rest: seq<FoodItem>, ids: seq<string>)
    requires |ids| > 0 && it.id == ids[0] && FollowsIds(rest, ids)
    requires forall x :: x in rest ==> x.id != ids[0]
    ensures FollowsIds([it] + rest, ids)
  {
    var r := [it] + rest;
    forall i, j | 0 <= i < j < |r| ensures IndexOf(ids, r[i].id) < IndexOf(ids, r[j].id) {
      assert r[j] == rest[j - 1] && r[j] in rest;
      if i > 0 {
        assert r[i] == rest[i - 1];
      }
    }
  }

  /** The item ids of the entries logged yesterday within an hour of the
      current hour, in entry order. */
  function CandidateIds(d: FoodData, yesterday: string, currentHour: int, hourOf: string -> int): seq<string> {
    ItemIds(Filter(d.entries, NearThisHourYesterday(yesterday, currentHour, hourOf)))
  }

  /** `timeSuggestions`: at most three known items. */
  function TimeSuggestions(d: FoodData, yesterday: string, currentHour: int, hourOf: string -> int): (r: seq<FoodItem>)
    ensures |r| <= 3
    ensures forall x :: x in r ==> x in d.foodItems
  {
    Take(Resolve(Dedup(CandidateIds(d, yesterday, currentHour, hourOf)), d.foodItems), 3)
  }

  /** No item is suggested twice. */
  lemma SuggestionsDistinct(d: FoodData, yesterday: string, currentHour: int, hourOf: string -> int)
    ensures var r := TimeSuggestions(d, yesterday, currentHour, hourOf);
            forall i, j :: 0 <= i < j < |r| ==> r[i].id != r[j].id
  {
  }

  /** The item id of an entry that passes the filter is among the ids of the
      survivors. */
  lemma NearIdListed(entries: seq<FoodEntry>, near: FoodEntry -> bool, e: FoodEntry)
    requires e in entries && near(e)
    ensures e.foodItemId in ItemIds(Filter(entries, near))
  {
    var relevant := Filter(entries, near);
    FilterMembers(entries, near);
    var i :| 0 <= i < |relevant| && relevant[i] == e;
    assert ItemIds(relevant)[i] == e.foodItemId;
  }

  /** An entry logged yesterday within an hour of the current hour puts its
      item id among the candidates. */
  lemma NearIsCandidate(d: FoodData, yesterday: string, currentHour: int, hourOf: string -> int, e: FoodEntry)
    requires e in d.entries
    requires BeforeT(e.timestamp) == yesterday && Abs(hourOf(e.timestamp) - currentHour) <= 1
    ensures e.foodItemId in CandidateIds(d, yesterday, currentHour, hourOf)
  {
    NearIdListed(d.entries, NearThisHourYesterday(yesterday, currentHour, hourOf), e);
  }

  /** Short of the cap of three, nothing is missed: the known item of every
      entry logged yesterday within an hour of the current hour is suggested. */
  lemma SuggestionsComplete(d: FoodData, yesterday: string, currentHour: int, hourOf: string -> int, e: FoodEntry)
    requires e in d.entries
    requires BeforeT(e.timestamp) == yesterday && Abs(hourOf(e.timestamp) - currentHour) <= 1
    requires FindItem(d.foodItems, e.foodItemId).Some?
    requires |TimeSuggestions(d, yesterday, currentHour, hourOf)| < 3
    ensures FindItem(d.foodItems, e.foodItemId).value in TimeSuggestions(d, yesterday, currentHour, hourOf)
  {
    NearIsCandidate(d, yesterday, currentHour, hourOf, e);
    ShownIfRoom(CandidateIds(d, yesterday, currentHour, hourOf), d.foodItems, e.foodItemId);
  }

  /** The pipeline of `timeSuggestions` over a list of candidate ids: short
      of three, the known item of every candidate id is shown. */
  lemma ShownIfRoom(ids: seq<string>, items: seq<FoodItem>, id: string)
    requires id in ids && FindItem(items, id).Some?
    requires |Take(Resolve(Dedup(ids), items), 3)| < 3
    ensures FindItem(items, id).value in Take(Resolve(Dedup(ids), items), 3)
  {
    var resolved := Resolve(Dedup(ids), items);
    assert FindItem(items, id).value in resolved;
    assert Take(resolved, 3) == resolved;
  }

  /** When the known item of a candidate id is left out, three are shown, and
      each of them was logged (in entry order) before it: the suggestions are
      the items of the first three candidate ids the catalogue knows. */
  lemma SuggestionsAreEarliest(d: FoodData, yesterday: string, currentHour: int, hourOf: string -> int,
                               id: string, x: FoodItem)
    requires id in CandidateIds(d, yesterday, currentHour, hourOf)
    requires FindItem(d.foodItems, id).Some?
    requires FindItem(d.foodItems, id).value !in TimeSuggestions(d, yesterday, currentHour, hourOf)
    requires x in TimeSuggestions(d, yesterday, currentHour, hourOf)
    ensures |TimeSuggestions(d, yesterday, currentHour, hourOf)| == 3
    ensures var ids := CandidateIds(d, yesterday, currentHour, hourOf);
            x.id in ids && IndexOf(ids, x.id) < IndexOf(ids, id)
  {
    ShownBeforeLeftOut(CandidateIds(d, yesterday, currentHour, hourOf), d.foodItems, id, x);
  }

  /** The pipeline of `timeSuggestions` over a list of candidate ids: an
      id's known item left out of the first three comes, by first
      occurrence, after each item shown, and three are shown. */
  lemma ShownBeforeLeftOut(ids: seq<string>, items: seq<FoodItem>, id: string, x: FoodItem)
    requires id in ids && FindItem(items, id).Some?
    requires FindItem(items, id).value !in Take(Resolve(Dedup(ids), items), 3)
    requires x in Take(Resolve(Dedup(ids), items), 3)
    ensures |Take(Resolve(Dedup(ids), items), 3)| == 3
    ensures x.id in ids && IndexOf(ids, x.id) < IndexOf(ids, id)
  {
    var unique := Dedup(ids);
    var resolved := Resolve(unique, items);
    var y := FindItem(items, id).value;
    assert y in resolved;
    LaterLeftOut(resolved, unique, x, y);
    EarlierFirstOccurrence(unique, ids, x.id, y.id);
  }

  /** An item left out of the first three of a list in id order comes after
      each of the three, and the three are all there. */
  lemma LaterLeftOut(resolved: seq<FoodItem>, ids: seq<string>, x: FoodItem, y: FoodItem)
    requires FollowsIds(resolved, ids)
    requires y in resolved && y !in Take(resolved, 3) && x in Take(resolved, 3)
    ensures |Take(resolved, 3)| == 3
    ensures x.id in ids && y.id in ids && IndexOf(ids, x.id) < IndexOf(ids, y.id)
  {
    var shown := Take(resolved, 3);
    var k :| 0 <= k < |resolved| && resolved[k] == y;
    var i :| 0 <= i < |shown| && shown[i] == x;
    assert resolved[i] == x;
  }

  /** Ids in first-occurrence order keep their relative order in the list
      they were taken from. */
  lemma EarlierFirstOccurrence(unique: seq<string>, ids: seq<string>, u: string, v: string)
    requires FirstOccurrenceOrder(unique, ids)
    requires u in unique && v in unique && IndexOf(unique, u) < IndexOf(unique, v)
    ensures u in ids && v in ids && IndexOf(ids, u) < IndexOf(ids, v)
  {
    var a, b := IndexOf(unique, u), IndexOf(unique, v);
    assert unique[a] == u && unique[b] == v;
  }

  /** Every suggestion was logged yesterday within an hour of the current
      hour: the lemma yields the entry that put it on the list. */
  lemma SuggestionFromYesterday(d: FoodData, yesterday: string, currentHour: int, hourOf: string -> int, x: FoodItem)
    returns (e: FoodEntry)
    requires x in TimeSuggestions(d, yesterday, currentHour, hourOf)
    ensures e in d.entries && e.foodItemId == x.id
    ensures BeforeT(e.timestamp) == yesterday && Abs(hourOf(e.timestamp) - currentHour) <= 1
  {
    var near := NearThisHourYesterday(yesterday, currentHour, hourOf);
    var relevant := Filter(d.entries, near);
    FilterMembers(d.entries, near);
    var ids := Dedup(ItemIds(relevant));
    assert x in Resolve(ids, d.foodItems);
    var i :| 0 <= i < |relevant| && ItemIds(relevant)[i] == x.id;
    e := relevant[i];
    assert e in relevant;
    assert near(e);
  }

  function OnDay(today: string): FoodEntry -> bool {
    (e: FoodEntry) => StartsWith(e.timestamp, today)
  }

  function TimeKey(at: string -> int): FoodEntry -> int {
    (e: FoodEntry) => at(e.timestamp)
  }

  /** The entries are listed newest first by the clock reading `at`. */
  ghost predicate NewestFirst(es: seq<FoodEntry>, at: string -> int) {
    forall i, j :: 0 <= i < j < |es| ==> at(es[i].timestamp) >= at(es[j].timestamp)
  }

  /** Today's entries, newest first. */
  function TodaysEntries(entries: seq<FoodEntry>, today: string, at: string -> int): (r: seq<FoodEntry>)
    ensures multiset(r) == multiset(Filter(entries, OnDay(today)))
    ensures SameTies(r, Filter(entries, OnDay(today)), TimeKey(at))
    ensures forall i, j :: 0 <= i < j < |r| ==> at(r[i].timestamp) >= at(r[j].timestamp)
    ensures forall e :: e in r ==> e in entries && StartsWith(e.timestamp, today)
  {
    var todays := Filter(entries, OnDay(today));
    FilterMembers(entries, OnDay(today));
    var r := SortDesc(todays, TimeKey(at));
    forall i, j | 0 <= i < j < |r| ensures at(r[i].timestamp) >= at(r[j].timestamp) {
      assert TimeKey(at)(r[i]) >= TimeKey(at)(r[j]);
    }
    forall e | e in r ensures e in entries && StartsWith(e.timestamp, today) {
      assert e in multiset(todays);
    }
    r
  }

  /** Today's list holds exactly the entries logged today. */
  lemma TodaysMembers(entries: seq<FoodEntry>, today: string, at: string -> int)
    ensures forall e :: e in TodaysEntries(entries, today, at) <==> e in entries && StartsWith(e.timestamp, today)
  {
    var sorted := TodaysEntries(entries, today, at);
    FilterMembers(entries, OnDay(today));
    forall e | e in entries && StartsWith(e.timestamp, today) ensures e in sorted {
      assert e in multiset(Filter(entries, OnDay(today)));
    }
  }

  function InMorning(hourOf: string -> int): FoodEntry -> bool {
    (e: FoodEntry) => 5 <= hourOf(e.timestamp) < 12
  }

  function InAfternoon(hourOf: string -> int): FoodEntry -> bool {
    (e: FoodEntry) => 12 <= hourOf(e.timestamp) < 17
  }

  function InEvening(hourOf: string -> int): FoodEntry -> bool {
    (e: FoodEntry) => hourOf(e.timestamp) >= 17 || hourOf(e.timestamp) < 5
  }

  datatype DayParts = DayParts(morning: seq<FoodEntry>, afternoon: seq<FoodEntry>, evening: seq<FoodEntry>)

  /** The three parts of a newest-first list are newest first. */
  lemma PartsNewestFirst(sorted: seq<FoodEntry>, hourOf: string -> int, at: string -> int)
    requires forall i, j :: 0 <= i < j < |sorted| ==> at(sorted[i].timestamp) >= at(sorted[j].timestamp)
    ensures NewestFirst(Filter(sorted, InMorning(hourOf)), at)
    ensures NewestFirst(Filter(sorted, InAfternoon(hourOf)), at)
    ensures NewestFirst(Filter(sorted, InEvening(hourOf)), at)
  {
    assert SortedDesc(sorted, TimeKey(at)) by {
      forall i, j | 0 <= i < j < |sorted| ensures TimeKey(at)(sorted[i]) >= TimeKey(at)(sorted[j]) {
      }
    }
    PartNewestFirst(sorted, InMorning(hourOf), at);
    PartNewestFirst(sorted, InAfternoon(hourOf), at);
    PartNewestFirst(sorted, InEvening(hourOf), at);
  }

  /** Cutting the parts from a stably sorted list keeps, within each part,
      entries logged at the same time in their original order. */
  lemma PartsKeepTies(sorted: seq<FoodEntry>, todays: seq<FoodEntry>, hourOf: string -> int, at: string -> int)
    requires SameTies(sorted, todays, TimeKey(at))
    ensures SameTies(Filter(sorted, InMorning(hourOf)), Filter(todays, InMorning(hourOf)), TimeKey(at))
    ensures SameTies(Filter(sorted, InAfternoon(hourOf)), Filter(todays, InAfternoon(hourOf)), TimeKey(at))
    ensures SameTies(Filter(sorted, InEvening(hourOf)), Filter(todays, InEvening(hourOf)), TimeKey(at))
  {
    FilterTies(sorted, todays, InMorning(hourOf), TimeKey(at));
    FilterTies(sorted, todays, InAfternoon(hourOf), TimeKey(at));
    FilterTies(sorted, todays, InEvening(hourOf), TimeKey(at));
  }

  /** A part cut from a newest-first list is newest first. */
  lemma PartNewestFirst(sorted: seq<FoodEntry>, part: FoodEntry -> bool, at: string -> int)
    requires SortedDesc(sorted, TimeKey(at))
    ensures NewestFirst(Filter(sorted, part), at)
  {
    var r := Filter(sorted, part);
    FilterSorted(sorted, part, TimeKey(at));
    forall i, j | 0 <= i < j < |r| ensures at(r[i].timestamp) >= at(r[j].timestamp) {
      assert TimeKey(at)(r[i]) >= TimeKey(at)(r[j]);
    }
  }

  /** `todaysEntries`: today's entries split by the hour they were logged. */
  function ByTimeOfDay(entries: seq<FoodEntry>, today: string, at: string -> int, hourOf: string -> int): (r: DayParts)
    ensures forall e :: e in r.morning <==>
              e in entries && StartsWith(e.timestamp, today) && 5 <= hourOf(e.timestamp) < 12
    ensures forall e :: e in r.afternoon <==>
              e in entries && StartsWith(e.timestamp, today) && 12 <= hourOf(e.timestamp) < 17
    ensures forall e :: e in r.evening <==>
              e in entries && StartsWith(e.timestamp, today) && (hourOf(e.timestamp) >= 17 || hourOf(e.timestamp) < 5)
    ensures NewestFirst(r.morning, at) && NewestFirst(r.afternoon, at) && NewestFirst(r.evening, at)
    ensures var todays := Filter(entries, OnDay(today));
            && SameTies(r.morning, Filter(todays, InMorning(hourOf)), TimeKey(at))
            && SameTies(r.afternoon, Filter(todays, InAfternoon(hourOf)), TimeKey(at))
            && SameTies(r.evening, Filter(todays, InEvening(hourOf)), TimeKey(at))
  {
    var sorted := TodaysEntries(entries, today, at);
    TodaysMembers(entries, today, at);
    FilterMembers(sorted, InMorning(hourOf));
    FilterMembers(sorted, InAfternoon(hourOf));
    FilterMembers(sorted, InEvening(hourOf));
    PartsNewestFirst(sorted, hourOf, at);
    PartsKeepTies(sorted, Filter(entries, OnDay(today)), hourOf, at);
    DayParts(Filter(sorted, InMorning(hourOf)), Filter(sorted, InAfternoon(hourOf)), Filter(sorted, InEvening(hourOf)))
  }

  /** Morning, afternoon and evening split today's entries: each one lands in
      exactly one part. */
  lemma DayPartsPartition(entries: seq<FoodEntry>, today: string, at: string -> int, hourOf: string -> int)
    ensures var parts := ByTimeOfDay(entries, today, at, hourOf);
            && |parts.morning| + |parts.afternoon| + |parts.evening| == |Filter(entries, OnDay(today))|
            && multiset(parts.morning) + multiset(parts.afternoon) + multiset(parts.evening)
               == multiset(Filter(entries, OnDay(today)))
  {
    var sorted := TodaysEntries(entries, today, at);
    FilterPartition3(sorted, InMorning(hourOf), InAfternoon(hourOf), InEvening(hourOf));
    assert |sorted| == |multiset(sorted)|;
  }

  /** The entry's item is known and scores below 50. */
  function KnownUnhealthy(items: seq<FoodItem>): FoodEntry -> bool {
    (e: FoodEntry) => match FindItem(items, e.foodItemId)
      case Some(it) => !IsHealthyScore(it.healthScore)
      case None => false
  }

  /** The entry's item is unknown or scores 50 or more. */
  function NotKnownUnhealthy(items: seq<FoodItem>): FoodEntry -> bool {
    (e: FoodEntry) => !KnownUnhealthy(items)(e)
  }

  function UnhealthyToday(items: seq<FoodItem>, today: string): FoodEntry -> bool {
    (e: FoodEntry) => OnDay(today)(e) && KnownUnhealthy(items)(e)
  }

  function OtherToday(items: seq<FoodItem>, today: string): FoodEntry -> bool {
    (e: FoodEntry) => OnDay(today)(e) && NotKnownUnhealthy(items)(e)
  }

  /** `unhealthyCount`. */
  function UnhealthyCount(d: FoodData, today: string): (r: nat)
    ensures r <= |Filter(d.entries, OnDay(today))|
    ensures r == 0 <==> forall k :: 0 <= k < |d.entries| ==> !UnhealthyToday(d.foodItems, today)(d.entries[k])
  {
    FilterLengthNone(d.entries, UnhealthyToday(d.foodItems, today));
    FilterConj(d.entries, OnDay(today), KnownUnhealthy(d.foodItems), UnhealthyToday(d.foodItems, today));
    |Filter(d.entries, UnhealthyToday(d.foodItems, today))|
  }

  /** The "Healthy" figure: all of today's entries minus the unhealthy ones. */
  function HealthyShown(d: FoodData, today: string, at: string -> int, hourOf: string -> int): (r: int)
    ensures r == |Filter(d.entries, OtherToday(d.foodItems, today))|
  {
    DayPartsPartition(d.entries, today, at, hourOf);
    FilterConj(d.entries, OnDay(today), KnownUnhealthy(d.foodItems), UnhealthyToday(d.foodItems, today));
    FilterConj(d.entries, OnDay(today), NotKnownUnhealthy(d.foodItems), OtherToday(d.foodItems, today));
    FilterPartition(Filter(d.entries, OnDay(today)), KnownUnhealthy(d.foodItems), NotKnownUnhealthy(d.foodItems));
    var parts := ByTimeOfDay(d.entries, today, at, hourOf);
    |parts.morning| + |parts.afternoon| + |parts.evening| - UnhealthyCount(d, today)
  }

  /** The two figures add up to today's entries; "Healthy" counts the entries
      whose item is healthy or no longer exists. */
  lemma ShownCountsAddUp(d: FoodData, today: string, at: string -> int, hourOf: string -> int)
    ensures HealthyShown(d, today, at, hourOf) + UnhealthyCount(d, today) == |Filter(d.entries, OnDay(today))|
    ensures HealthyShown(d, today, at, hourOf) == |Filter(d.entries, OtherToday(d.foodItems, today))|
  {
    DayPartsPartition(d.entries, today, at, hourOf);
    var todays := Filter(d.entries, OnDay(today));
    FilterConj(d.entries, OnDay(today), KnownUnhealthy(d.foodItems), UnhealthyToday(d.foodItems, today));
    FilterConj(d.entries, OnDay(today), NotKnownUnhealthy(d.foodItems), OtherToday(d.foodItems, today));
    FilterPartition(todays, KnownUnhealthy(d.foodItems), NotKnownUnhealthy(d.foodItems));
  }
}

=== FILE: habit_card.dfy ===
/** The swipe gesture of src/components/HabitCard.tsx as a state machine over
    touch events. A swipe further than 50 pixels in either direction toggles
    the habit; the card's offset is clamped to 100 pixels either way. */
module HabitCard {

  /** `swipeX` and `isSwiping` state plus the `startXRef` ref. */
  datatype Swipe = Swipe(swipeX: real, isSwiping: bool, startX: real)

  datatype Touch = TouchStart(clientX: real) | TouchMove(clientX: real) | TouchEnd

  /** The card as first rendered. */
  const Idle := Swipe(0.0, false, 0.0)

  /** The card's offset never leaves [-100, 100]. */
  predicate InRange(s: Swipe) {
    -100.0 <= s.swipeX <= 100.0
  }

  /** `Math.max(-100, Math.min(100, x))`. */
  function Clamp(x: real): (r: real)
    ensures -100.0 <= r <= 100.0
    ensures -100.0 <= x <= 100.0 ==> r == x
    ensures x < -100.0 ==> r == -100.0
    ensures x > 100.0 ==> r == 100.0
  {
    var upper := if 100.0 < x then 100.0 else x;
    if -100.0 > upper then -100.0 else upper
  }

  /** `Math.abs(swipeX) > 50`. */
  predicate FarEnough(x: real) {
    (if x < 0.0 then -x else x) > 50.0
  }

  /** One touch event: the new state and whether `onToggle` was called. */
  function Step(s: Swipe, t: Touch): (r: (Swipe, bool))
    ensures InRange(s) ==> InRange(r.0)
    ensures t.TouchStart? ==> r == (s.(isSwiping := true, startX := t.clientX), false)
    ensures t.TouchMove? && !s.isSwiping ==> r == (s, false)
    ensures t.TouchMove? && s.isSwiping ==>
              !r.1 && r.0.isSwiping && r.0.startX == s.startX
              && r.0.swipeX == Clamp(t.clientX - s.startX)
    ensures t.TouchEnd? ==> r.0.swipeX == 0.0 && !r.0.isSwiping && r.0.startX == s.startX
    ensures t.TouchEnd? ==> (r.1 <==> s.swipeX > 50.0 || s.swipeX < -50.0)
  {
    match t
    case TouchStart(x) => (s.(isSwiping := true, startX := x), false)
    case TouchMove(x) =>
      if !s.isSwiping then (s, false)
      else (s.(swipeX := Clamp(x - s.startX)), false)
    case TouchEnd => (s.(isSwiping := false, swipeX := 0.0), FarEnough(s.swipeX))
  }

  /** A sequence of touch events: the final state and how many times
      `onToggle` was called. */
  function Run(s: Swipe, ts: seq<Touch>): (r: (Swipe, nat))
    decreases |ts|
  {
    if ts == [] then (s, 0)
    else
      var (s1, toggled) := Step(s, ts[0]);
      var (s2, n) := Run(s1, ts[1..]);
      (s2, n + if toggled then 1 else 0)
  }

  /** Number of touch-end events in `ts`. */
  function Ends(ts: seq<Touch>): nat {
    if ts == [] then 0 else (if ts[0].TouchEnd? then 1 else 0) + Ends(ts[1..])
  }

  /** From the idle card, any event sequence keeps the offset within bounds
      and toggles at most once per lifted finger. */
  lemma {:induction false} RunInvariant(s: Swipe, ts: seq<Touch>)
    requires InRange(s)
    ensures InRange(Run(s, ts).0)
    ensures Run(s, ts).1 <= Ends(ts)
    decreases |ts|
  {
    if ts != [] {
      RunInvariant(Step(s, ts[0]).0, ts[1..]);
    }
  }

  /** One gesture from the idle card: touching at `a`, moving to `b` and
      lifting toggles the habit exactly when the finger travelled more than
      50 pixels, however far beyond the 100-pixel clamp it went. */
  lemma OneSwipe(a: real, b: real)
    ensures Run(Idle, [TouchStart(a), TouchMove(b), TouchEnd]).1
            == if b - a > 50.0 || b - a < -50.0 then 1 else 0
  {
    var ts := [TouchStart(a), TouchMove(b), TouchEnd];
    var s1 := Step(Idle, ts[0]).0;
    var s2 := Step(s1, ts[1]).0;
    assert s2.swipeX == Clamp(b - a);
    assert ts[1..][1..][1..] == [];
    assert Run(s2, ts[1..][1..]).1 == if FarEnough(Clamp(b - a)) then 1 else 0;
  }

  /** Moving without a touch in progress is ignored entirely. */
  lemma {:induction false} StrayMovesIgnored(s: Swipe, xs: seq<real>)
    requires !s.isSwiping
    ensures Run(s, seq(|xs|, i requires 0 <= i < |xs| => TouchMove(xs[i]))) == (s, 0)
    decreases |xs|
  {
    if xs != [] {
      var ts := seq(|xs|, i requires 0 <= i < |xs| => TouchMove(xs[i]));
      StrayMovesIgnored(s, xs[1..]);
      assert ts[1..] == seq(|xs[1..]|, i requires 0 <= i < |xs[1..]| => TouchMove(xs[1..][i]));
    }
  }
}

=== FILE: habit_list.dfy ===
/** The habit list screen of src/components/HabitList.tsx: the split into
    pending and completed habits, the "all done" banner, the add form and the
    completed-habits popup. Today's key is a parameter. */
module HabitList {
  import opened Wrappers
  import opened Text
  import opened Seqs
  import opened Types
  import opened Habits
  import App

  /** The filter condition of the pending list. */
  function PendingOn(today: string): Habit -> bool {
    h => !IsCompletedOn(h, today)
  }

  /** `habits.filter(h => !isHabitCompletedToday(h))`. */
  function Pending(habits: seq<Habit>, today: string): (r: seq<Habit>)
    ensures forall h :: h in r <==> h in habits && !IsCompletedOn(h, today)
  {
    FilterMembers(habits, PendingOn(today));
    Filter(habits, PendingOn(today))
  }

  /** `habits.filter(h => isHabitCompletedToday(h))`. */
  function Completed(habits: seq<Habit>, today: string): (r: seq<Habit>)
    ensures forall h :: h in r <==> h in habits && IsCompletedOn(h, today)
  {
    FilterMembers(habits, CompletedOn(today));
    Filter(habits, CompletedOn(today))
  }

  /** Every habit lands in exactly one of the two lists, each list keeps the
      original order, and the lists agree with today's completion state. */
  lemma PendingCompletedPartition(habits: seq<Habit>, today: string)
    ensures |Pending(habits, today)| + |Completed(habits, today)| == |habits|
    ensures multiset(Pending(habits, today)) + multiset(Completed(habits, today)) == multiset(habits)
    ensures SubsequenceOf(Pending(habits, today), habits)
    ensures SubsequenceOf(Completed(habits, today), habits)
    ensures forall h :: h in Pending(habits, today) ==> !IsCompletedOn(h, today)
    ensures forall h :: h in Completed(habits, today) ==> IsCompletedOn(h, today)
  {
    FilterMembers(habits, PendingOn(today));
    FilterMembers(habits, CompletedOn(today));
    FilterPartition(habits, PendingOn(today), CompletedOn(today));
    FilterIsSubsequence(habits, PendingOn(today));
    FilterIsSubsequence(habits, CompletedOn(today));
  }

  /** `habits.length > 0 && pendingHabits.length === 0`. */
  function AllComplete(habits: seq<Habit>, today: string): (b: bool)
    ensures b ==> |habits| > 0 && forall h :: h in habits ==> IsCompletedOn(h, today)
    ensures !b ==> |habits| == 0 || exists h :: h in habits && !IsCompletedOn(h, today)
  {
    var pending := Pending(habits, today);
    assert |pending| > 0 ==> pending[0] in pending;
    |habits| > 0 && |pending| == 0
  }

  /** The banner shows exactly when there are habits and all are done today. */
  lemma AllCompleteIff(habits: seq<Habit>, today: string)
    ensures AllComplete(habits, today)
            <==> |habits| > 0 && forall i :: 0 <= i < |habits| ==> IsCompletedOn(habits[i], today)
  {
    FilterMembers(habits, PendingOn(today));
    if |habits| > 0 && |Pending(habits, today)| > 0 {
      var h := Pending(habits, today)[0];
      assert h in habits && !IsCompletedOn(h, today);
    }
    if |habits| > 0 && exists i :: 0 <= i < |habits| && !IsCompletedOn(habits[i], today) {
      var i :| 0 <= i < |habits| && !IsCompletedOn(habits[i], today);
      assert habits[i] in Pending(habits, today);
    }
  }

  /** The add form: its text field and whether it is shown. */
  datatype AddForm = AddForm(newHabitName: string, showAddForm: bool)

  /** `handleSubmit`: the trimmed name to hand to `onAdd` (if any) and the form
      state afterwards. */
  function Submit(f: AddForm): (r: (AddForm, Option<string>))
    ensures r.1.Some? <==> exists k :: 0 <= k < |f.newHabitName| && !IsWhitespace(f.newHabitName[k])
    ensures r.1.Some? ==> r.1.value == Trim(f.newHabitName) && r.1.value != ""
                          && r.0 == AddForm("", false)
    ensures r.1.None? ==> r.0 == f
  {
    TrimEmptyIff(f.newHabitName);
    var name := Trim(f.newHabitName);
    if name != "" then (AddForm("", false), Some(name)) else (f, None)
  }

  /** The `isFirst` flags of the pending cards: `index === 0`. */
  function FirstFlags(pending: seq<Habit>): (r: seq<bool>)
    ensures |r| == |pending|
    ensures forall i, j :: 0 <= i < |r| && 0 <= j < |r| && r[i] && r[j] ==> i == j
    ensures |r| > 0 ==> r[0]
  {
    seq(|pending|, i => i == 0)
  }

  /** The Undo button of the completed popup: the toggled habits and whether
      the popup stays open (it closes when the list had one entry). */
  function Undo(habits: seq<Habit>, today: string, habitId: string): (r: (seq<Habit>, bool))
    ensures r.0 == App.ToggleById(habits, habitId, today)
    ensures !r.1 <==> exists k :: OnlyPasser(habits, CompletedOn(today), k)
  {
    FilterLengthOne(habits, CompletedOn(today));
    (App.ToggleById(habits, habitId, today), |Completed(habits, today)| != 1)
  }

  /** With unique ids, undoing a completed habit closes the popup exactly when
      no completed habit is left to show. */
  lemma UndoClosesPopupIffLast(habits: seq<Habit>, today: string, k: nat)
    requires App.UniqueIds(habits)
    requires k < |habits| && IsCompletedOn(habits[k], today)
    ensures var (after, open) := Undo(habits, today, habits[k].id);
            open <==> |Completed(after, today)| > 0
  {
    var h := habits[k];
    var after := App.ToggleById(habits, h.id, today);
    assert after == habits[k := ToggleCompletion(h, today)];
    FilterLengthUpdate(habits, k, ToggleCompletion(h, today), CompletedOn(today));
    FilterMembers(habits, CompletedOn(today));
    assert h in Completed(habits, today);
  }
}

=== FILE: habits.dfy ===
/** Habit completion logic of src/utils/habits.ts. A completion "belongs to"
    a day when it starts with the day's key, so completions may be stored as
    bare day keys or as full timestamps. Fresh ids, the creation time and
    today's key are parameters. */
module Habits {
  import opened Wrappers
  import opened Text
  import opened Seqs
  import opened Types

  /** `completions.some(d => d.startsWith(day))`. */
  function AnyStartsWith(completions: seq<string>, day: string): (b: bool)
    ensures b <==> exists i :: 0 <= i < |completions| && StartsWith(completions[i], day)
  {
    if completions == [] then false
    else StartsWith(completions[0], day) || AnyStartsWith(completions[1..], day)
  }

  /** The habit was done on `day`: the shared day-membership test. */
  function IsCompletedOn(h: Habit, day: string): (b: bool)
    ensures b <==> exists c :: c in h.completions && StartsWith(c, day)
  {
    AnyStartsWith(h.completions, day)
  }

  /** The filter condition of the undo branch: the completion is not on `day`. */
  function NotOnDay(day: string): string -> bool {
    c => !StartsWith(c, day)
  }

  /** The filter condition of the progress count. */
  function CompletedOn(day: string): Habit -> bool {
    h => IsCompletedOn(h, day)
  }

  /** `createHabit(name)`, with the fresh id and the creation time supplied. */
  function CreateHabit(name: string, id: string, createdAt: string): (r: Habit)
    ensures r.name == name && r.id == id && r.createdAt == createdAt
    ensures forall day :: !IsCompletedOn(r, day)
  {
    Habit(id, name, createdAt, [])
  }

  /** The day `toggleHabitCompletion(habit, date)` acts on: `date || getToday()`,
      so an absent or empty date means today. */
  function TargetDay(date: Option<string>, today: string): (r: string)
    ensures date.Some? && date.value != "" ==> r == date.value
    ensures date.None? || date.value == "" ==> r == today
  {
    if date.Some? && date.value != "" then date.value else today
  }

  /** `toggleHabitCompletion(habit, date)`: the toggle on the target day. */
  function ToggleHabitCompletion(h: Habit, date: Option<string>, today: string): (r: Habit)
    ensures r.id == h.id && r.name == h.name && r.createdAt == h.createdAt
    ensures IsCompletedOn(r, TargetDay(date, today)) <==> !IsCompletedOn(h, TargetDay(date, today))
  {
    ToggleCompletion(h, TargetDay(date, today))
  }

  /** A missing date and an empty one both mean today: `""` is falsy. */
  lemma ToggleDefaultsToToday(h: Habit, today: string)
    ensures ToggleHabitCompletion(h, None, today) == ToggleCompletion(h, today)
    ensures ToggleHabitCompletion(h, Some(""), today) == ToggleCompletion(h, today)
  {
  }

  /** `toggleHabitCompletion` once the target day is known: undo removes every
      completion on the day, completing appends the day key. */
  function ToggleCompletion(h: Habit, day: string): (r: Habit)
    ensures r.id == h.id && r.name == h.name && r.createdAt == h.createdAt
    ensures IsCompletedOn(h, day) ==>
              && !IsCompletedOn(r, day)
              && SubsequenceOf(r.completions, h.completions)
              && (forall c :: c in h.completions && !StartsWith(c, day) ==> c in r.completions)
              && forall c: string :: !StartsWith(c, day) ==>
                   multiset(r.completions)[c] == multiset(h.completions)[c]
    ensures !IsCompletedOn(h, day) ==>
              && r.completions == h.completions + [day]
              && IsCompletedOn(r, day)
  {
    if AnyStartsWith(h.completions, day) then
      var kept := Filter(h.completions, NotOnDay(day));
      FilterIsSubsequence(h.completions, NotOnDay(day));
      FilterMembers(h.completions, NotOnDay(day));
      FilterCount(h.completions, NotOnDay(day));
      assert forall i :: 0 <= i < |kept| ==> kept[i] in kept;
      h.(completions := kept)
    else
      var added := h.completions + [day];
      assert StartsWith(added[|added| - 1], day);
      h.(completions := added)
  }

  /** Completing a day and undoing it again restores the habit exactly. */
  lemma ToggleTwiceRestores(h: Habit, day: string)
    requires !IsCompletedOn(h, day)
    ensures ToggleCompletion(ToggleCompletion(h, day), day) == h
  {
    var p := NotOnDay(day);
    FilterAppend(h.completions, [day], p);
    FilterKeepsAll(h.completions, p);
    assert Filter([day], p) == [] by {
      assert !p(day);
    }
  }

  /** `Math.round(100 * c / n)` in exact arithmetic, rounding halves up. */
  function RoundPercent(c: nat, n: nat): (r: nat)
    requires 0 < n && c <= n
    ensures r <= 100
    ensures 2 * n * r <= 200 * c + n < 2 * n * (r + 1)
    ensures r as real - 0.5 <= 100.0 * c as real / n as real < r as real + 0.5
  {
    QuotientBound(c, n);
    NearestBracket(c, n, (200 * c + n) / (2 * n));
    (200 * c + n) / (2 * n)
  }

  /** The rounded quotient stays within 0..100 and brackets `100c/n`. */
  lemma QuotientBound(c: nat, n: nat)
    requires 0 < n && c <= n
    ensures var q := (200 * c + n) / (2 * n);
            0 <= q <= 100 && 2 * n * q <= 200 * c + n < 2 * n * (q + 1)
  {
    var q := (200 * c + n) / (2 * n);
    assert q * (2 * n) <= 200 * c + n < (q + 1) * (2 * n);
    if q > 100 {
      MulMonotone(101, q, 2 * n);
    }
  }

  /** The integer bracket of `QuotientBound`, read over the reals: `q` is the
      value of `100c/n` rounded to the nearest integer, halves up. */
  lemma NearestBracket(c: nat, n: nat, q: int)
    requires 0 < n && 2 * n * q <= 200 * c + n < 2 * n * (q + 1)
    ensures q as real - 0.5 <= 100.0 * c as real / n as real < q as real + 0.5
  {
    var nr, qr, cr := n as real, q as real, c as real;
    assert (2 * n * q) as real == 2.0 * nr * qr;
    assert (2 * n * (q + 1)) as real == 2.0 * nr * (qr + 1.0);
    assert (200 * c + n) as real == 200.0 * cr + nr;
    assert (qr - 0.5) * nr <= 100.0 * cr;
    DivLe(qr - 0.5, 100.0 * cr, nr);
    assert 100.0 * cr < (qr + 0.5) * nr;
    DivLt(qr + 0.5, 100.0 * cr, nr);
  }

  /** Dividing both sides of `a * n <= b` by a positive `n`. */
  lemma DivLe(a: real, b: real, n: real)
    requires n > 0.0 && a * n <= b
    ensures a <= b / n
  {
    var x := b / n;
    assert x * n == b;
    if a > x {
      assert a * n > x * n;
    }
  }

  /** Dividing both sides of `b < a * n` by a positive `n`. */
  lemma DivLt(a: real, b: real, n: real)
    requires n > 0.0 && b < a * n
    ensures b / n < a
  {
    var x := b / n;
    assert x * n == b;
    if x >= a {
      assert x * n >= a * n;
    }
  }

  /** Multiplying by a non-negative factor preserves `<=`. */
  lemma MulMonotone(a: int, b: int, n: nat)
    requires a <= b
    ensures n * a <= n * b
  {
  }

  /** The number of habits done on `day`. */
  function CountCompleted(habits: seq<Habit>, day: string): (r: nat)
    ensures r <= |habits|
    ensures r == 0 <==> forall i :: 0 <= i < |habits| ==> !IsCompletedOn(habits[i], day)
    ensures r == |habits| <==> forall i :: 0 <= i < |habits| ==> IsCompletedOn(habits[i], day)
  {
    FilterLengthNone(habits, CompletedOn(day));
    FilterLengthFull(habits, CompletedOn(day));
    |Filter(habits, CompletedOn(day))|
  }

  /** Counting habit by habit: a further habit adds one exactly when it is
      done that day. */
  lemma CountCompletedSnoc(habits: seq<Habit>, h: Habit, day: string)
    ensures CountCompleted(habits + [h], day)
            == CountCompleted(habits, day) + if IsCompletedOn(h, day) then 1 else 0
  {
    FilterAppend(habits, [h], CompletedOn(day));
    assert Filter([h], CompletedOn(day)) == (if IsCompletedOn(h, day) then [h] else []) + Filter([h][1..], CompletedOn(day));
  }

  /** One of two habits done shows 50 percent. */
  lemma HalfDoneIsFifty(a: Habit, b: Habit, day: string)
    requires IsCompletedOn(a, day) && !IsCompletedOn(b, day)
    ensures DateProgress([a, b], day) == 50
  {
    CountCompletedSnoc([a], b, day);
    CountCompletedSnoc([], a, day);
    assert [] + [a] == [a] && [a] + [b] == [a, b];
  }

  /** `getDateProgress(habits, day)`. */
  function DateProgress(habits: seq<Habit>, day: string): (r: nat)
    ensures r <= 100
    ensures |habits| == 0 ==> r == 0
    ensures |habits| > 0 ==>
              var exact := 100.0 * CountCompleted(habits, day) as real / |habits| as real;
              r as real - 0.5 <= exact < r as real + 0.5
  {
    if |habits| == 0 then 0 else RoundPercent(CountCompleted(habits, day), |habits|)
  }

  /** `getTodayProgress(habits)`, with today's key supplied. */
  function TodayProgress(habits: seq<Habit>, today: string): (r: nat)
    ensures r == DateProgress(habits, today)
  {
    if |habits| == 0 then 0
    else RoundPercent(|Filter(habits, CompletedOn(today))|, |habits|)
  }

  /** With fewer than 200 habits, rounding reaches 100 only when all are done. */
  lemma RoundFullIff(c: nat, n: nat)
    requires 0 < n < 200 && c <= n
    ensures RoundPercent(c, n) == 100 <==> c == n
  {
    var r := RoundPercent(c, n);
    if c == n {
      assert 201 * n < 2 * n * (r + 1);
      if r < 100 {
        MulMonotone(r + 1, 100, 2 * n);
        assert false;
      }
    } else if r == 100 {
      assert false;
    }
  }

  /** With at most 200 habits, rounding reaches 0 only when none is done. */
  lemma RoundZeroIff(c: nat, n: nat)
    requires 0 < n <= 200 && c <= n
    ensures RoundPercent(c, n) == 0 <==> c == 0
  {
  }

  /** The bounds above are tight: 199 of 200 rounds to 100 and 1 of 201 to 0. */
  lemma RoundingHidesStragglers()
    ensures RoundPercent(199, 200) == 100
    ensures RoundPercent(1, 201) == 0
  {
  }

  /** Progress is 100 exactly when every habit is done that day (below 200 habits). */
  lemma ProgressFullIff(habits: seq<Habit>, day: string)
    requires 0 < |habits| < 200
    ensures DateProgress(habits, day) == 100
            <==> forall i :: 0 <= i < |habits| ==> IsCompletedOn(habits[i], day)
  {
    FilterLengthFull(habits, CompletedOn(day));
    RoundFullIff(CountCompleted(habits, day), |habits|);
  }

  /** Progress is 0 exactly when no habit is done that day (up to 200 habits). */
  lemma ProgressZeroIff(habits: seq<Habit>, day: string)
    requires |habits| <= 200
    ensures DateProgress(habits, day) == 0
            <==> forall i :: 0 <= i < |habits| ==> !IsCompletedOn(habits[i], day)
  {
    if |habits| > 0 {
      RoundZeroIff(CountCompleted(habits, day), |habits|);
      var done := Filter(habits, CompletedOn(day));
      FilterMembers(habits, CompletedOn(day));
      if |done| > 0 {
        assert done[0] in habits;
      } else {
        assert forall i :: 0 <= i < |habits| ==> habits[i] !in done;
      }
    }
  }
}

=== FILE: seqs.dfy ===
/** The array operations of JavaScript the application composes (`filter`,
    `find`, `[...new Set(xs)]`, `sort`, `reverse`, `reduce`), written once over
    Dafny sequences together with the facts the rest of the model uses. */
module Seqs {
  import opened Wrappers

  /** `s.filter(p)`. */
  function Filter<T>(s: seq<T>, p: T -> bool): (r: seq<T>)
    ensures |r| <= |s|
  {
    if s == [] then [] else (if p(s[0]) then [s[0]] else []) + Filter(s[1..], p)
  }

  /** The survivors of a filter are exactly the elements that pass it. */
  lemma {:induction false} FilterMembers<T>(s: seq<T>, p: T -> bool)
    ensures forall x :: x in Filter(s, p) ==> x in s && p(x)
    ensures forall x :: x in s && p(x) ==> x in Filter(s, p)
  {
    if s != [] {
      FilterMembers(s[1..], p);
      assert s == [s[0]] + s[1..];
    }
  }

  /** A filter keeps every copy of an element that passes and no copy of
      one that fails. */
  lemma {:induction false} FilterCount<T>(s: seq<T>, p: T -> bool)
    ensures forall x :: multiset(Filter(s, p))[x] == if p(x) then multiset(s)[x] else 0
  {
    if s != [] {
      FilterCount(s[1..], p);
      assert s == [s[0]] + s[1..];
      assert multiset(s) == multiset{s[0]} + multiset(s[1..]);
      var head := if p(s[0]) then [s[0]] else [];
      assert Filter(s, p) == head + Filter(s[1..], p);
      assert multiset(Filter(s, p)) == multiset(head) + multiset(Filter(s[1..], p));
    }
  }

  /** `t` is obtained from `s` by deleting elements, keeping the rest in order. */
  predicate SubsequenceOf<T(==)>(t: seq<T>, s: seq<T>)
    decreases |s|
  {
    if t == [] then true
    else if s == [] then false
    else (t[0] == s[0] && SubsequenceOf(t[1..], s[1..])) || SubsequenceOf(t, s[1..])
  }

  /** Every sequence is a subsequence of itself. */
  lemma {:induction false} SubsequenceOfSelf<T>(s: seq<T>)
    ensures SubsequenceOf(s, s)
  {
    if s != [] {
      SubsequenceOfSelf(s[1..]);
    }
  }

  /** Every element of `s` is different from every other. */
  predicate Distinct<T(==)>(s: seq<T>) {
    forall i, j :: 0 <= i < j < |s| ==> s[i] != s[j]
  }

  /** Filtering keeps the survivors in their original order. */
  lemma {:induction false} FilterIsSubsequence<T>(s: seq<T>, p: T -> bool)
    ensures SubsequenceOf(Filter(s, p), s)
  {
    if s != [] {
      FilterIsSubsequence(s[1..], p);
      var t := Filter(s, p);
      if p(s[0]) {
        assert t[0] == s[0] && t[1..] == Filter(s[1..], p);
      } else {
        assert t == Filter(s[1..], p);
      }
    }
  }

  /** Filtering distributes over concatenation. */
  lemma {:induction false} FilterAppend<T>(a: seq<T>, b: seq<T>, p: T -> bool)
    ensures Filter(a + b, p) == Filter(a, p) + Filter(b, p)
  {
    if a != [] {
      assert (a + b)[0] == a[0] && (a + b)[1..] == a[1..] + b;
      FilterAppend(a[1..], b, p);
    } else {
      assert a + b == b;
    }
  }

  /** Filtering with a condition every element meets changes nothing. */
  lemma {:induction false} FilterKeepsAll<T>(s: seq<T>, p: T -> bool)
    requires forall k :: 0 <= k < |s| ==> p(s[k])
    ensures Filter(s, p) == s
  {
    if s != [] {
      FilterKeepsAll(s[1..], p);
    }
  }

  /** Filtering with a condition no element meets leaves nothing. */
  lemma {:induction false} FilterKeepsNone<T>(s: seq<T>, p: T -> bool)
    requires forall k :: 0 <= k < |s| ==> !p(s[k])
    ensures Filter(s, p) == []
  {
    if s != [] {
      FilterKeepsNone(s[1..], p);
    }
  }

  /** The filter keeps nothing exactly when no element passes. */
  lemma {:induction false} FilterLengthNone<T>(s: seq<T>, p: T -> bool)
    ensures |Filter(s, p)| == 0 <==> forall k :: 0 <= k < |s| ==> !p(s[k])
  {
    if s != [] {
      FilterLengthNone(s[1..], p);
      assert forall k :: 1 <= k < |s| ==> s[k] == s[1..][k - 1];
    }
  }

  /** A filter that rejects exactly the element at `k` removes just that one. */
  lemma {:induction false} FilterRemovesOne<T>(s: seq<T>, k: nat, p: T -> bool)
    requires k < |s| && !p(s[k])
    requires forall i :: 0 <= i < |s| && i != k ==> p(s[i])
    ensures Filter(s, p) == s[..k] + s[k + 1..]
  {
    var t := s[1..];
    assert forall i :: 0 <= i < |t| && i != k - 1 ==> p(t[i]) by {
      forall i | 0 <= i < |t| && i != k - 1 ensures p(t[i]) {
        assert t[i] == s[i + 1];
      }
    }
    if k == 0 {
      assert !p(s[0]);
      assert Filter(s, p) == t by {
        assert Filter(s, p) == Filter(t, p);
        FilterKeepsAll(t, p);
      }
    } else {
      assert p(s[0]);
      assert Filter(s, p) == [s[0]] + (t[..k - 1] + t[k..]) by {
        assert Filter(s, p) == [s[0]] + Filter(t, p);
        FilterRemovesOne(t, k - 1, p);
      }
      assert s[..k] + s[k + 1..] == [s[0]] + (t[..k - 1] + t[k..]) by {
        assert s[..k] == [s[0]] + t[..k - 1];
        assert s[k + 1..] == t[k..];
      }
    }
  }

  /** The filter keeps everything exactly when every element passes. */
  lemma {:induction false} FilterLengthFull<T>(s: seq<T>, p: T -> bool)
    ensures |Filter(s, p)| == |s| <==> forall k :: 0 <= k < |s| ==> p(s[k])
  {
    if s != [] {
      FilterLengthFull(s[1..], p);
      assert forall k :: 1 <= k < |s| ==> s[k] == s[1..][k - 1];
    }
  }

  /** `s[k]` is the one element of `s` that passes `p`. */
  ghost predicate OnlyPasser<T>(s: seq<T>, p: T -> bool, k: int) {
    0 <= k < |s| && p(s[k]) && forall j :: 0 <= j < |s| && j != k ==> !p(s[j])
  }

  /** The filter keeps a single element exactly when one element passes. */
  lemma {:induction false} FilterLengthOne<T>(s: seq<T>, p: T -> bool)
    ensures |Filter(s, p)| == 1 <==> exists k :: OnlyPasser(s, p, k)
  {
    if s != [] {
      var t := s[1..];
      FilterLengthOne(t, p);
      FilterLengthNone(t, p);
      assert forall j :: 1 <= j < |s| ==> s[j] == t[j - 1];
      if p(s[0]) {
        if |Filter(s, p)| == 1 {
          assert OnlyPasser(s, p, 0);
        }
        if exists k :: OnlyPasser(s, p, k) {
          var k :| OnlyPasser(s, p, k);
          assert k == 0;
        }
      } else {
        if |Filter(s, p)| == 1 {
          var k :| OnlyPasser(t, p, k);
          assert OnlyPasser(s, p, k + 1);
        }
        if exists k :: OnlyPasser(s, p, k) {
          var k :| OnlyPasser(s, p, k);
          assert OnlyPasser(t, p, k - 1);
        }
      }
    }
  }

  /** Adding one element to one part of a split adds it to the whole. */
  lemma AddOne<T>(a: multiset<T>, b: multiset<T>, m: multiset<T>, x: T)
    requires a + b == m
    ensures (multiset{x} + a) + b == multiset{x} + m
    ensures b + (multiset{x} + a) == multiset{x} + m
  {
  }

  /** Two filters that split the elements of `s` between them keep `|s|`
      elements between them. */
  lemma {:induction false} FilterPartitionLength<T>(s: seq<T>, p: T -> bool, q: T -> bool)
    requires forall x :: x in s ==> (p(x) || q(x)) && !(p(x) && q(x))
    ensures |Filter(s, p)| + |Filter(s, q)| == |s|
  {
    if s != [] {
      var t := s[1..];
      assert forall x :: x in t ==> x in s;
      FilterPartitionLength(t, p, q);
      assert s[0] in s;
      assert |Filter(s, p)| == (if p(s[0]) then 1 else 0) + |Filter(t, p)|;
      assert |Filter(s, q)| == (if q(s[0]) then 1 else 0) + |Filter(t, q)|;
    }
  }

  /** Two filters that split the elements of `s` between them keep every
      element of `s` exactly once between them. */
  lemma {:induction false} FilterPartitionMultiset<T>(s: seq<T>, p: T -> bool, q: T -> bool)
    requires forall x :: x in s ==> (p(x) || q(x)) && !(p(x) && q(x))
    ensures multiset(Filter(s, p)) + multiset(Filter(s, q)) == multiset(s)
  {
    if s != [] {
      var t := s[1..];
      assert forall x :: x in t ==> x in s;
      FilterPartitionMultiset(t, p, q);
      assert multiset(s) == multiset{s[0]} + multiset(t) by {
        assert s == [s[0]] + t;
      }
      assert s[0] in s;
      if p(s[0]) {
        assert multiset(Filter(s, p)) == multiset{s[0]} + multiset(Filter(t, p)) by {
          assert Filter(s, p) == [s[0]] + Filter(t, p);
        }
        assert Filter(s, q) == Filter(t, q);
        AddOne(multiset(Filter(t, p)), multiset(Filter(t, q)), multiset(t), s[0]);
      } else {
        assert multiset(Filter(s, q)) == multiset{s[0]} + multiset(Filter(t, q)) by {
          assert Filter(s, q) == [s[0]] + Filter(t, q);
        }
        assert Filter(s, p) == Filter(t, p);
        AddOne(multiset(Filter(t, q)), multiset(Filter(t, p)), multiset(t), s[0]);
      }
    }
  }

  /** Two filters that split the elements of `s` between them split `s` into
      two parts that together hold every element of `s` exactly once. */
  lemma FilterPartition<T>(s: seq<T>, p: T -> bool, q: T -> bool)
    requires forall x :: x in s ==> (p(x) || q(x)) && !(p(x) && q(x))
    ensures |Filter(s, p)| + |Filter(s, q)| == |s|
    ensures multiset(Filter(s, p)) + multiset(Filter(s, q)) == multiset(s)
  {
    FilterPartitionLength(s, p, q);
    FilterPartitionMultiset(s, p, q);
  }

  function Not<T>(p: T -> bool): T -> bool {
    (x: T) => !p(x)
  }

  /** Three mutually exclusive, jointly exhaustive filters split `s` into three
      parts that together hold every element of `s` exactly once. */
  lemma FilterPartition3<T>(s: seq<T>, p: T -> bool, q: T -> bool, o: T -> bool)
    requires forall x :: (p(x) || q(x) || o(x)) && !(p(x) && q(x)) && !(p(x) && o(x)) && !(q(x) && o(x))
    ensures |Filter(s, p)| + |Filter(s, q)| + |Filter(s, o)| == |s|
    ensures multiset(Filter(s, p)) + multiset(Filter(s, q)) + multiset(Filter(s, o)) == multiset(s)
  {
    var rest := Filter(s, Not(p));
    FilterPartition(s, p, Not(p));
    FilterConj(s, Not(p), q, q);
    FilterConj(s, Not(p), o, o);
    FilterMembers(s, Not(p));
    FilterPartition(rest, q, o);
  }

  /** Filtering by a conjunction is filtering twice. */
  lemma {:induction false} FilterConj<T>(s: seq<T>, p: T -> bool, q: T -> bool, pq: T -> bool)
    requires forall x :: pq(x) == (p(x) && q(x))
    ensures Filter(s, pq) == Filter(Filter(s, p), q)
  {
    if s != [] {
      FilterConj(s[1..], p, q, pq);
      var head := if pq(s[0]) then [s[0]] else [];
      assert Filter(s, pq) == head + Filter(s[1..], pq);
      if p(s[0]) {
        assert Filter(s, p) == [s[0]] + Filter(s[1..], p);
        FilterAppend([s[0]], Filter(s[1..], p), q);
        assert Filter([s[0]], q) == head;
      } else {
        assert Filter(s, p) == Filter(s[1..], p);
        assert head == [];
      }
    }
  }

  /** Replacing one element changes the number of survivors of a filter by
      what the old and the new element contribute. */
  lemma {:induction false} FilterLengthUpdate<T>(s: seq<T>, k: nat, x: T, p: T -> bool)
    requires k < |s|
    ensures |Filter(s[k := x], p)| + (if p(s[k]) then 1 else 0)
            == |Filter(s, p)| + (if p(x) then 1 else 0)
  {
    var t := s[k := x];
    if k == 0 {
      assert t[1..] == s[1..];
    } else {
      FilterLengthUpdate(s[1..], k - 1, x, p);
      assert t[0] == s[0] && t[1..] == s[1..][k - 1 := x];
    }
  }

  /** `s.filter((_, i) => i !== index)`. */
  function RemoveAt<T>(s: seq<T>, index: int): (r: seq<T>)
    ensures 0 <= index < |s| ==> r == s[..index] + s[index + 1..]
    ensures !(0 <= index < |s|) ==> r == s
  {
    if s == [] then []
    else
      var rest := RemoveAt(s[1..], index - 1);
      if index == 0 then rest
      else
        assert 0 < index < |s| ==> s[..index] == [s[0]] + s[1..][..index - 1];
        [s[0]] + rest
  }

  /** `s.findIndex(p)`, with `-1` rendered as `None`. */
  function FindFirst<T>(s: seq<T>, p: T -> bool): (r: Option<nat>)
    ensures r.Some? ==> r.value < |s| && p(s[r.value])
                        && forall j :: 0 <= j < r.value ==> !p(s[j])
    ensures r.None? ==> forall j :: 0 <= j < |s| ==> !p(s[j])
  {
    if s == [] then None
    else if p(s[0]) then Some(0)
    else match FindFirst(s[1..], p)
      case None => None
      case Some(k) => Some(k + 1)
  }

  /** `s.indexOf(x)` for an `x` that occurs in `s`. */
  function IndexOf<T(==)>(s: seq<T>, x: T): (r: nat)
    requires x in s
    ensures r < |s| && s[r] == x
    ensures forall j :: 0 <= j < r ==> s[j] != x
  {
    if s[0] == x then 0 else 1 + IndexOf(s[1..], x)
  }

  /** Every element of `r` occurs in `s`, and `r` lists them in the order of
      their first occurrences there. */
  predicate FirstOccurrenceOrder<T(==)>(r: seq<T>, s: seq<T>) {
    (forall x :: x in r ==> x in s)
    && forall i, j :: 0 <= i < j < |r| ==> IndexOf(s, r[i]) < IndexOf(s, r[j])
  }

  /** `[...new Set(s)]` for the elements not already in `seen`: first
      occurrences, in order. */
  function DedupFrom<T(==)>(s: seq<T>, seen: set<T>): (r: seq<T>)
    ensures Distinct(r)
    ensures forall x :: x in r ==> x in s && x !in seen
    ensures forall x :: x in s && x !in seen ==> x in r
    ensures SubsequenceOf(r, s)
    ensures FirstOccurrenceOrder(r, s)
  {
    if s == [] then []
    else if s[0] in seen then
      var r := DedupFrom(s[1..], seen);
      assert r == [] || SubsequenceOf(r, s[1..]);
      r
    else
      var rest := DedupFrom(s[1..], seen + {s[0]});
      var r := [s[0]] + rest;
      assert r[1..] == rest;
      r
  }

  /** `[...new Set(s)]`. */
  function Dedup<T(==)>(s: seq<T>): (r: seq<T>)
    ensures Distinct(r)
    ensures forall x :: x in r ==> x in s
    ensures forall x :: x in s ==> x in r
    ensures SubsequenceOf(r, s)
    ensures FirstOccurrenceOrder(r, s)
  {
    DedupFrom(s, {})
  }

  /** `s` is ordered by non-increasing `key`. */
  ghost predicate SortedDesc<T>(s: seq<T>, key: T -> int) {
    forall i, j :: 0 <= i < j < |s| ==> key(s[i]) >= key(s[j])
  }

  /** Inserts `x` into a sorted `t` ahead of every element whose key does not
      exceed its own. */
  function Insert<T>(x: T, t: seq<T>, key: T -> int): (r: seq<T>)
    requires SortedDesc(t, key)
    ensures |r| == |t| + 1
    ensures SortedDesc(r, key)
    ensures multiset(r) == multiset(t) + multiset{x}
    ensures r[0] == x || (t != [] && r[0] == t[0])
  {
    if t == [] || key(x) >= key(t[0]) then
      ConsSorted(x, t, key);
      [x] + t
    else
      var rest := Insert(x, t[1..], key);
      assert key(t[0]) >= key(rest[0]);
      assert multiset(t) == multiset{t[0]} + multiset(t[1..]) by {
        assert t == [t[0]] + t[1..];
      }
      ConsSorted(t[0], rest, key);
      [t[0]] + rest
  }

  /** Filtering a sorted sequence leaves it sorted. */
  lemma {:induction false} FilterSorted<T>(s: seq<T>, p: T -> bool, key: T -> int)
    requires SortedDesc(s, key)
    ensures SortedDesc(Filter(s, p), key)
  {
    if s != [] {
      var rest := Filter(s[1..], p);
      assert SortedDesc(s[1..], key) by {
        forall i, j | 0 <= i < j < |s[1..]| ensures key(s[1..][i]) >= key(s[1..][j]) {
          assert s[1..][i] == s[i + 1] && s[1..][j] == s[j + 1];
        }
      }
      FilterSorted(s[1..], p, key);
      if p(s[0]) {
        FilterMembers(s[1..], p);
        if rest != [] {
          assert rest[0] in s[1..];
          var k :| 0 <= k < |s[1..]| && s[1..][k] == rest[0];
          assert s[k + 1] == rest[0];
        }
        ConsSorted(s[0], rest, key);
        assert Filter(s, p) == [s[0]] + rest;
      } else {
        assert Filter(s, p) == rest;
      }
    }
  }

  /** Putting an element no smaller than the head in front keeps a sequence
      sorted. */
  lemma ConsSorted<T>(h: T, t: seq<T>, key: T -> int)
    requires SortedDesc(t, key)
    requires t == [] || key(h) >= key(t[0])
    ensures SortedDesc([h] + t, key)
  {
    var r := [h] + t;
    forall i, j | 0 <= i < j < |r| ensures key(r[i]) >= key(r[j]) {
      assert r[j] == t[j - 1];
      if i == 0 {
        if j > 1 {
          assert key(t[0]) >= key(t[j - 1]);
        }
      } else {
        assert r[i] == t[i - 1];
      }
    }
  }

  function KeyIs<T>(key: T -> int, v: int): T -> bool {
    (x: T) => key(x) == v
  }

  /** Elements with equal keys come in the same order in `r` as in `s`. */
  ghost predicate SameTies<T>(r: seq<T>, s: seq<T>, key: T -> int) {
    forall v :: Filter(r, KeyIs(key, v)) == Filter(s, KeyIs(key, v))
  }

  /** Inserting `x` puts it ahead of the elements of its own key and leaves
      the order of every other key alone. */
  lemma {:induction false} InsertTies<T>(x: T, t: seq<T>, key: T -> int, v: int)
    requires SortedDesc(t, key)
    ensures Filter(Insert(x, t, key), KeyIs(key, v))
            == (if key(x) == v then [x] else []) + Filter(t, KeyIs(key, v))
  {
    var p := KeyIs(key, v);
    if t == [] || key(x) >= key(t[0]) {
      FilterCons(x, t, p);
    } else {
      InsertPastHead(x, t, key);
      var rest := Insert(x, t[1..], key);
      InsertTies(x, t[1..], key, v);
      FilterCons(t[0], rest, p);
      assert t == [t[0]] + t[1..];
      FilterCons(t[0], t[1..], p);
      SwapHeads(if p(t[0]) then [t[0]] else [], if key(x) == v then [x] else [], Filter(t[1..], p));
    }
  }

  /** An element ranked below the head is inserted into the tail. */
  lemma InsertPastHead<T>(x: T, t: seq<T>, key: T -> int)
    requires SortedDesc(t, key) && t != [] && key(x) < key(t[0])
    ensures SortedDesc(t[1..], key)
    ensures Insert(x, t, key) == [t[0]] + Insert(x, t[1..], key)
  {
    SortedTail(t, key);
  }

  /** Two heads of which at most one is non-empty can trade places. */
  lemma SwapHeads<T>(a: seq<T>, b: seq<T>, c: seq<T>)
    requires a == [] || b == []
    ensures a + (b + c) == b + (a + c)
  {
    if a == [] {
      assert a + (b + c) == b + c;
    } else {
      assert b + (a + c) == a + c;
    }
  }

  /** Filtering a sequence with a head in front. */
  lemma FilterCons<T>(h: T, t: seq<T>, p: T -> bool)
    ensures Filter([h] + t, p) == (if p(h) then [h] else []) + Filter(t, p)
  {
    assert ([h] + t)[0] == h && ([h] + t)[1..] == t;
  }

  /** The tail of a sorted sequence is sorted. */
  lemma SortedTail<T>(t: seq<T>, key: T -> int)
    requires t != [] && SortedDesc(t, key)
    ensures SortedDesc(t[1..], key)
  {
    forall i, j | 0 <= i < j < |t[1..]| ensures key(t[1..][i]) >= key(t[1..][j]) {
      assert t[1..][i] == t[i + 1] && t[1..][j] == t[j + 1];
    }
  }

  /** Sorting the tail stably and inserting the head sorts stably. */
  lemma SortTies<T>(s: seq<T>, t: seq<T>, key: T -> int)
    requires s != [] && SortedDesc(t, key) && SameTies(t, s[1..], key)
    ensures SameTies(Insert(s[0], t, key), s, key)
  {
    forall v ensures Filter(Insert(s[0], t, key), KeyIs(key, v)) == Filter(s, KeyIs(key, v)) {
      InsertTies(s[0], t, key, v);
    }
  }

  /** Filtering keeps equal-key order in step: if `r` and `s` list every key's
      elements in the same order, so do their filtered versions. */
  lemma FilterTies<T>(r: seq<T>, s: seq<T>, p: T -> bool, key: T -> int)
    requires SameTies(r, s, key)
    ensures SameTies(Filter(r, p), Filter(s, p), key)
  {
    forall v ensures Filter(Filter(r, p), KeyIs(key, v)) == Filter(Filter(s, p), KeyIs(key, v)) {
      var both := Both(p, KeyIs(key, v));
      assert Filter(r, KeyIs(key, v)) == Filter(s, KeyIs(key, v));
      FilterConj(r, p, KeyIs(key, v), both);
      FilterConj(r, KeyIs(key, v), p, both);
      FilterConj(s, p, KeyIs(key, v), both);
      FilterConj(s, KeyIs(key, v), p, both);
    }
  }

  function Both<T>(p: T -> bool, q: T -> bool): T -> bool {
    (x: T) => p(x) && q(x)
  }

  /** `[...s].sort((a, b) => key(b) - key(a))`: a stable sort by
      non-increasing key (ECMAScript's `Array.prototype.sort` is stable). */
  function SortDesc<T>(s: seq<T>, key: T -> int): (r: seq<T>)
    ensures |r| == |s|
    ensures SortedDesc(r, key)
    ensures multiset(r) == multiset(s)
    ensures SameTies(r, s, key)
  {
    if s == [] then []
    else
      var t := SortDesc(s[1..], key);
      assert multiset(s) == multiset(t) + multiset{s[0]} by {
        assert s == [s[0]] + s[1..];
      }
      SortTies(s, t, key);
      Insert(s[0], t, key)
  }

  /** The first `n` elements are a part of the whole. */
  lemma TakeSubMultiset<T>(s: seq<T>, n: nat)
    ensures multiset(Take(s, n)) <= multiset(s)
  {
    if n < |s| {
      assert s == s[..n] + s[n..];
    }
  }

  /** The first `n` of a stable ordering of `s` list the elements of each key
      in the order of `s`, as a prefix of all of them. */
  lemma TakeTies<T>(r: seq<T>, s: seq<T>, n: nat, key: T -> int)
    requires SameTies(r, s, key)
    ensures forall v :: Filter(Take(r, n), KeyIs(key, v)) <= Filter(s, KeyIs(key, v))
  {
    forall v ensures Filter(Take(r, n), KeyIs(key, v)) <= Filter(s, KeyIs(key, v)) {
      FilterTakePrefix(r, n, KeyIs(key, v));
    }
  }

  /** Filtering a prefix keeps a prefix of what filtering the whole keeps. */
  lemma FilterTakePrefix<T>(s: seq<T>, n: nat, p: T -> bool)
    ensures Filter(Take(s, n), p) <= Filter(s, p)
  {
    if n < |s| {
      assert s == s[..n] + s[n..];
      FilterAppend(s[..n], s[n..], p);
    }
  }

  /** `[...s].reverse()`. */
  function Reverse<T>(s: seq<T>): (r: seq<T>)
    ensures |r| == |s|
    ensures forall k :: 0 <= k < |s| ==> r[k] == s[|s| - 1 - k]
  {
    if s == [] then [] else Reverse(s[1..]) + [s[0]]
  }

  /** `s.slice(0, n)`. */
  function Take<T>(s: seq<T>, n: nat): (r: seq<T>)
    ensures |r| == if n < |s| then n else |s|
    ensures forall k :: 0 <= k < |r| ==> r[k] == s[k]
    ensures forall x :: x in r ==> x in s
  {
    if n < |s| then s[..n] else s
  }

  /** An element of a sorted sequence that the first `n` leave out ranks no
      higher than any of them, and the first `n` are full. */
  lemma TakeSortedTop<T>(s: seq<T>, key: T -> int, n: nat, x: T)
    requires SortedDesc(s, key)
    requires x in s && x !in Take(s, n)
    ensures |Take(s, n)| == n
    ensures forall i :: 0 <= i < n ==> key(s[i]) >= key(x)
  {
    var m :| 0 <= m < |s| && s[m] == x;
  }

  /** `s.reduce((a, b) => a + b, 0)` over exact reals. */
  function Sum(s: seq<real>): real {
    if s == [] then 0.0 else s[0] + Sum(s[1..])
  }

  /** The sum lies between `|s|` times a lower and `|s|` times an upper bound
      of its terms. */
  lemma {:induction false} SumBounds(s: seq<real>, lo: real, hi: real)
    requires forall k :: 0 <= k < |s| ==> lo <= s[k] <= hi
    ensures |s| as real * lo <= Sum(s) <= |s| as real * hi
  {
    if s != [] {
      SumBounds(s[1..], lo, hi);
    }
  }

  /** The arithmetic mean of a non-empty sequence. */
  function Mean(s: seq<real>): real
    requires |s| > 0
  {
    Sum(s) / |s| as real
  }

  /** A mean lies between any lower and any upper bound of its terms. */
  lemma MeanBounds(s: seq<real>, lo: real, hi: real)
    requires |s| > 0
    requires forall k :: 0 <= k < |s| ==> lo <= s[k] <= hi
    ensures lo <= Mean(s) <= hi
  {
    SumBounds(s, lo, hi);
  }
}

=== FILE: setup.dfy ===
/** The first-run form of src/components/Setup.tsx: a user name and a list of
    habit names turned into the initial `AppData`. Each created habit takes its
    fresh id and creation time from `ids(i)` and `stamps(i)`. */
module Setup {
  import opened Wrappers
  import opened Text
  import opened Seqs
  import opened Types
  import opened Habits

  datatype Form = Form(userName: string, habitName: string, habits: seq<string>)

  /** `handleAddHabit`: appends the trimmed habit name when it is not blank. */
  function AddHabit(f: Form): (r: Form)
    ensures r.userName == f.userName
    ensures Trim(f.habitName) != "" ==>
              r.habitName == "" && r.habits == f.habits + [Trim(f.habitName)]
    ensures Trim(f.habitName) == "" ==> r == f
  {
    var name := Trim(f.habitName);
    if name != "" then f.(habits := f.habits + [name], habitName := "") else f
  }

  /** `handleRemoveHabit(index)`: drops the element at `index`, if any. */
  function RemoveHabit(f: Form, index: int): (r: Form)
    ensures r.userName == f.userName && r.habitName == f.habitName
    ensures 0 <= index < |f.habits| ==>
              |r.habits| == |f.habits| - 1
              && (forall k :: 0 <= k < index ==> r.habits[k] == f.habits[k])
              && (forall k :: index <= k < |r.habits| ==> r.habits[k] == f.habits[k + 1])
    ensures !(0 <= index < |f.habits|) ==> r == f
  {
    f.(habits := RemoveAt(f.habits, index))
  }

  /** Removing the name just added undoes the addition. */
  lemma AddThenRemove(f: Form)
    requires Trim(f.habitName) != ""
    ensures RemoveHabit(AddHabit(f), |f.habits|).habits == f.habits
  {
    var added := AddHabit(f).habits;
    assert added[..|f.habits|] == f.habits;
  }

  /** `!userName.trim() || habits.length === 0`. */
  function ButtonDisabled(f: Form): (b: bool)
    ensures b <==> (forall k :: 0 <= k < |f.userName| ==> IsWhitespace(f.userName[k])) || |f.habits| == 0
  {
    TrimEmptyIff(f.userName);
    Trim(f.userName) == "" || |f.habits| == 0
  }

  /** `handleComplete`: the initial data, when the user name is not blank and
      at least one habit is listed. */
  function Complete(f: Form, ids: nat -> string, stamps: nat -> string): (r: Option<AppData>)
    ensures r.Some? <==> Trim(f.userName) != "" && |f.habits| > 0
    ensures r.Some? ==>
              && r.value.userName == Trim(f.userName)
              && |r.value.habits| == |f.habits|
              && forall i :: 0 <= i < |f.habits| ==>
                   && r.value.habits[i].name == f.habits[i]
                   && r.value.habits[i].id == ids(i)
                   && r.value.habits[i].createdAt == stamps(i)
                   && forall day :: !IsCompletedOn(r.value.habits[i], day)
  {
    if Trim(f.userName) != "" && |f.habits| > 0 then
      var habits := seq(|f.habits|, i requires 0 <= i < |f.habits| => CreateHabit(f.habits[i], ids(i), stamps(i)));
      assert forall i :: 0 <= i < |f.habits| ==> habits[i] == CreateHabit(f.habits[i], ids(i), stamps(i));
      Some(AppData(Trim(f.userName), habits))
    else None
  }

  /** The button is disabled exactly when completing would emit nothing. */
  lemma ButtonDisabledIff(f: Form, ids: nat -> string, stamps: nat -> string)
    ensures ButtonDisabled(f) <==> Complete(f, ids, stamps).None?
  {
  }
}

=== FILE: storage.dfy ===
/** The persistence decisions of src/utils/storage.ts over an abstract JSON
    value: what `loadData` returns for what is stored, what the legacy
    `importData` resolves with, the backup envelope `exportAllData` builds and
    the shape check and defaulting `importAllData` applies. `JSON.parse` is a
    partial function parameter (`None` when it throws), `JSON.stringify` a
    total one, the file contents `None` when the reader fails, and "now" a
    parameter. */
module Storage {
  import opened Wrappers

  /** A JSON value as `JSON.parse` produces it. */
  datatype Json =
    | JNull
    | JBool(b: bool)
    | JNumber(n: real)
    | JString(s: string)
    | JArray(items: seq<Json>)
    | JObject(fields: map<string, Json>)

  /** JavaScript truthiness of a parsed value: `null`, `false`, `0` and `""`
      are falsy; arrays and objects, even empty ones, are truthy. */
  predicate Truthy(v: Json) {
    match v
    case JNull => false
    case JBool(b) => b
    case JNumber(n) => n != 0.0
    case JString(s) => s != []
    case JArray(_) => true
    case JObject(_) => true
  }

  /** `v.key` on a value that is not `null`: `None` is `undefined`, which is
      what every non-object and every object without the key gives. */
  function Field(v: Json, key: string): (r: Option<Json>)
    requires v != JNull
    ensures r.Some? <==> v.JObject? && key in v.fields
    ensures r.Some? ==> r.value == v.fields[key]
  {
    if v.JObject? && key in v.fields then Some(v.fields[key]) else None
  }

  /** Truthiness of `v.key`: `undefined` is falsy. */
  predicate TruthyField(v: Json, key: string)
    requires v != JNull
  {
    match Field(v, key)
    case Some(x) => Truthy(x)
    case None => false
  }

  /** `x || fallback` for a property read. */
  function FieldOr(v: Json, key: string, fallback: Json): (r: Json)
    requires v != JNull
    ensures TruthyField(v, key) ==> r == v.fields[key]
    ensures !TruthyField(v, key) ==> r == fallback
  {
    match Field(v, key)
    case Some(x) => if Truthy(x) then x else fallback
    case None => fallback
  }

  // ----------------------------------------------------------------- loading

  /** `loadData`: `null` when nothing (or the empty string) is stored or the
      stored text does not parse; otherwise the parsed value. */
  function LoadData(stored: Option<string>, parse: string -> Option<Json>): (r: Json)
    ensures stored.None? || stored == Some("") ==> r == JNull
    ensures stored.Some? && stored.value != "" && parse(stored.value).None? ==> r == JNull
    ensures stored.Some? && stored.value != "" && parse(stored.value).Some? ==> r == parse(stored.value).value
  {
    match stored
    case None => JNull
    case Some(text) =>
      if text == "" then JNull
      else match parse(text)
        case Some(v) => v
        case None => JNull
  }

  /** Saving with `stringify` and loading back returns what was saved, given
      that `parse` undoes `stringify` and stringifying never yields the
      empty string. */
  lemma SaveThenLoad(v: Json, parse: string -> Option<Json>, stringify: Json -> string)
    requires parse(stringify(v)) == Some(v)
    requires stringify(v) != ""
    ensures LoadData(Some(stringify(v)), parse) == v
  {
  }

  // ---------------------------------------------------------------- importing

  /** The three ways an import is rejected. */
  datatype ImportError = InvalidJson | InvalidFormat | ReadFailed {
    /** The message of the rejecting `Error`. */
    function Message(): string {
      match this
      case InvalidJson => "Invalid JSON file"
      case InvalidFormat => "Invalid backup file format"
      case ReadFailed => "Failed to read file"
    }
  }

  /** The legacy `importData`: resolves with whatever parses, with no check
      of its shape. */
  function ImportLegacy(file: Option<string>, parse: string -> Option<Json>): (r: Result<Json, ImportError>)
    ensures file.None? ==> r == Err(ReadFailed)
    ensures file.Some? ==> (r.Err? <==> parse(file.value).None?)
    ensures r.Err? ==> r.error != InvalidFormat
    ensures r.Ok? ==> parse(file.value) == Some(r.value)
  {
    match file
    case None => Err(ReadFailed)
    case Some(text) =>
      match parse(text)
      case Some(v) => Ok(v)
      case None => Err(InvalidJson)
  }

  /** The backup envelope (`UnifiedAppData`) with its slots as JSON values. */
  datatype Envelope = Envelope(version: Json, habits: Json, weight: Json, food: Json, exportedAt: Json)

  /** The envelope as the JSON object that is written out. */
  function EnvelopeJson(e: Envelope): (r: Json)
    ensures r.JObject? && r.fields.Keys == {"version", "habits", "weight", "food", "exportedAt"}
  {
    JObject(map["version" := e.version, "habits" := e.habits, "weight" := e.weight,
                "food" := e.food, "exportedAt" := e.exportedAt])
  }

  /** The format version every backup carries. */
  const BackupVersion: string := "1.0.0"

  /** `exportAllData`: the three slots copied as they are, stamped with the
      format version and the export time. */
  function ExportAll(habits: Json, weight: Json, food: Json, now: string): (r: Envelope)
    ensures r.version == JString(BackupVersion) && r.exportedAt == JString(now)
    ensures r.habits == habits && r.weight == weight && r.food == food
  {
    Envelope(JString(BackupVersion), habits, weight, food, JString(now))
  }

  /** `importAllData`: rejects unreadable files and unparseable text (a
      parsed `null` too, since reading its `version` throws), rejects a value
      without a truthy `version` and `habits`, and otherwise copies those two
      and defaults the rest: a falsy weight or food slot becomes `null`, a
      falsy export time becomes the import time. */
  function ImportAll(file: Option<string>, parse: string -> Option<Json>, now: string): (r: Result<Envelope, ImportError>)
    ensures file.None? <==> r == Err(ReadFailed)
    ensures file.Some? ==>
              (r == Err(InvalidJson) <==> parse(file.value).None? || parse(file.value) == Some(JNull))
    ensures file.Some? && parse(file.value).Some? && parse(file.value).value != JNull ==>
              var v := parse(file.value).value;
              (r == Err(InvalidFormat) <==> !TruthyField(v, "version") || !TruthyField(v, "habits"))
    ensures r.Ok? ==>
              var v := parse(file.value).value;
              && v != JNull
              && r.value.version == v.fields["version"] && Truthy(r.value.version)
              && r.value.habits == v.fields["habits"] && Truthy(r.value.habits)
              && r.value.weight == FieldOr(v, "weight", JNull)
              && r.value.food == FieldOr(v, "food", JNull)
              && r.value.exportedAt == FieldOr(v, "exportedAt", JString(now))
  {
    match file
    case None => Err(ReadFailed)
    case Some(text) =>
      match parse(text)
      case None => Err(InvalidJson)
      case Some(v) =>
        if v == JNull then Err(InvalidJson)
        else if !TruthyField(v, "version") || !TruthyField(v, "habits") then Err(InvalidFormat)
        else Ok(Envelope(v.fields["version"], v.fields["habits"],
                         FieldOr(v, "weight", JNull), FieldOr(v, "food", JNull),
                         FieldOr(v, "exportedAt", JString(now))))
  }

  /** Every accepted envelope is normalised: truthy version, habits and
      export time, and weight and food either `null` or truthy. */
  lemma ImportedIsNormalised(file: Option<string>, parse: string -> Option<Json>, now: string)
    requires now != ""
    requires ImportAll(file, parse, now).Ok?
    ensures var e := ImportAll(file, parse, now).value;
            && Truthy(e.version) && Truthy(e.habits) && Truthy(e.exportedAt)
            && (e.weight == JNull || Truthy(e.weight))
            && (e.food == JNull || Truthy(e.food))
  {
  }

  /** Importing an accepted envelope again, once written out, accepts it
      unchanged: import is a normalisation. */
  lemma ImportIdempotent(file: Option<string>, parse: string -> Option<Json>, stringify: Json -> string,
                         now: string, later: string)
    requires now != ""
    requires ImportAll(file, parse, now).Ok?
    requires var j := EnvelopeJson(ImportAll(file, parse, now).value); parse(stringify(j)) == Some(j)
    ensures var e := ImportAll(file, parse, now).value;
            ImportAll(Some(stringify(EnvelopeJson(e))), parse, later) == Ok(e)
  {
    ImportedIsNormalised(file, parse, now);
  }

  /** Round trip: writing out what `exportAllData` builds and importing it
      gives back the same habits, weight, food, version and export time, as
      long as parsing undoes stringifying, the habit data is present and each
      of weight and food is an object or `null`. */
  lemma ExportImportRoundTrip(habits: Json, weight: Json, food: Json, now: string, later: string,
                              parse: string -> Option<Json>, stringify: Json -> string)
    requires Truthy(habits)
    requires weight == JNull || weight.JObject?
    requires food == JNull || food.JObject?
    requires now != ""
    requires var j := EnvelopeJson(ExportAll(habits, weight, food, now)); parse(stringify(j)) == Some(j)
    ensures ImportAll(Some(stringify(EnvelopeJson(ExportAll(habits, weight, food, now)))), parse, later)
            == Ok(ExportAll(habits, weight, food, now))
  {
  }

  /** The round trip needs the habit data to be present: an export made
      without it is rejected as malformed. */
  lemma ExportWithoutHabitsRejected(weight: Json, food: Json, now: string, later: string,
                                    parse: string -> Option<Json>, stringify: Json -> string)
    requires var j := EnvelopeJson(ExportAll(JNull, weight, food, now)); parse(stringify(j)) == Some(j)
    ensures ImportAll(Some(stringify(EnvelopeJson(ExportAll(JNull, weight, food, now)))), parse, later)
            == Err(InvalidFormat)
  {
  }
}

=== FILE: text.dfy ===
/** The few string primitives of ECMAScript the application relies on. */
module Text {

  /** `s.startsWith(prefix)`. */
  predicate StartsWith(s: string, prefix: string) {
    |prefix| <= |s| && s[..|prefix|] == prefix
  }

  /** The code points `String.prototype.trim` removes: ECMAScript WhiteSpace
      (tab, vertical tab, form feed, space, no-break space, the byte order mark
      and the Space_Separator category) and LineTerminator. */
  predicate IsWhitespace(c: char) {
    || c == '\t' || c == '\n' || c == '\U{000B}' || c == '\U{000C}' || c == '\r'
    || c == ' ' || c == '\U{00A0}' || c == '\U{1680}'
    || ('\U{2000}' <= c <= '\U{200A}')
    || c == '\U{2028}' || c == '\U{2029}' || c == '\U{202F}' || c == '\U{205F}'
    || c == '\U{3000}' || c == '\U{FEFF}'
  }

  /** Drops the leading whitespace of `s`. */
  function TrimStart(s: string): (r: string)
    ensures |r| <= |s| && r == s[|s| - |r|..]
    ensures forall i :: 0 <= i < |s| - |r| ==> IsWhitespace(s[i])
    ensures r == [] || !IsWhitespace(r[0])
  {
    if |s| > 0 && IsWhitespace(s[0]) then TrimStart(s[1..]) else s
  }

  /** Drops the trailing whitespace of `s`. */
  function TrimEnd(s: string): (r: string)
    ensures |r| <= |s| && r == s[..|r|]
    ensures forall i :: |r| <= i < |s| ==> IsWhitespace(s[i])
    ensures r == [] || !IsWhitespace(r[|r| - 1])
  {
    if |s| > 0 && IsWhitespace(s[|s| - 1]) then TrimEnd(s[..|s| - 1]) else s
  }

  /** `s.trim()`: `s` without its leading and trailing whitespace. */
  function Trim(s: string): (r: string)
    ensures |r| <= |s|
    ensures r == [] || (!IsWhitespace(r[0]) && !IsWhitespace(r[|r| - 1]))
  {
    TrimEnd(TrimStart(s))
  }

  /** Trimming cuts an infix out of `s` by removing only whitespace; the lemma
      yields where the infix starts and ends. */
  lemma TrimSlice(s: string) returns (i: nat, j: nat)
    ensures i <= j <= |s| && Trim(s) == s[i..j]
    ensures forall k :: 0 <= k < i ==> IsWhitespace(s[k])
    ensures forall k :: j <= k < |s| ==> IsWhitespace(s[k])
  {
    var t := TrimStart(s);
    var r := TrimEnd(t);
    i := |s| - |t|;
    j := i + |r|;
    assert r == s[i..j];
    forall k | j <= k < |s| ensures IsWhitespace(s[k]) {
      assert s[k] == t[k - i];
    }
  }

  /** Trimming leaves nothing exactly when the string is all whitespace: the
      guard `if (x.trim())` the forms use. */
  lemma TrimEmptyIff(s: string)
    ensures Trim(s) == [] <==> forall k :: 0 <= k < |s| ==> IsWhitespace(s[k])
  {
    var i, j := TrimSlice(s);
    if Trim(s) != [] {
      assert s[i] == Trim(s)[0];
    }
  }

  /** `s.split('T')[0]`: everything before the first `T`, or all of `s`. */
  function BeforeT(s: string): (r: string)
    ensures StartsWith(s, r)
    ensures forall k :: 0 <= k < |r| ==> r[k] != 'T'
    ensures |r| == |s| || s[|r|] == 'T'
  {
    if s == [] || s[0] == 'T' then [] else [s[0]] + BeforeT(s[1..])
  }
}

=== FILE: types.dfy ===
/** The records the application stores and passes around. `Habit` and
    `AppData` mirror src/types/index.ts; the weight and food records take the
    shapes the storage tests build. Timestamps are ISO-8601 strings, as stored. */
module Types {
  import opened Wrappers

  datatype Habit = Habit(id: string, name: string, createdAt: string, completions: seq<string>)

  datatype AppData = AppData(userName: string, habits: seq<Habit>)

  datatype WeightEntry = WeightEntry(weight: real, timestamp: string, notes: Option<string>)

  datatype WeightData = WeightData(
    enabled: bool,
    currentWeight: real,
    goalWeight: real,
    startWeight: real,
    startDate: string,
    entries: seq<WeightEntry>)

  datatype FoodUnit = G | Kg | Ml | L | Pcs | Serving

  datatype FoodItem = FoodItem(
    id: string,
    name: string,
    defaultAmount: real,
    unit: FoodUnit,
    servingDescription: Option<string>,
    healthScore: int,
    lastUsedAt: Option<string>,
    useCount: int)

  datatype FoodEntry = FoodEntry(
    id: string,
    foodItemId: string,
    amount: real,
    timestamp: string,
    notes: Option<string>)

  datatype FoodData = FoodData(enabled: bool, foodItems: seq<FoodItem>, entries: seq<FoodEntry>)

  /** The backup envelope once its shape has been accepted (`UnifiedAppData`). */
  datatype UnifiedAppData = UnifiedAppData(
    version: string,
    habits: AppData,
    weight: Option<WeightData>,
    food: Option<FoodData>,
    exportedAt: string)

  /** What `parseFloat` makes of a form field: `NaN` or a finite number. */
  datatype Parsed = NaN | Num(value: real)

  /** The guard `!(isNaN(x) || x <= 0)` every numeric form applies. */
  predicate IsPositive(x: Parsed) {
    x.Num? && x.value > 0.0
  }
}

=== FILE: weight_setup.dfy ===
/** The weight set-up form of src/components/WeightSetup.tsx. `parseFloat`
    of the two fields arrives as `Parsed` values. The two reads of the clock,
    one for the start date and one for the first entry, are parameters. */
module WeightSetup {
  import opened Wrappers
  import opened Text
  import opened Types
  import opened WeightTracker

  /** `!currentWeight.trim() || !goalWeight.trim()`. */
  function ButtonDisabled(currentText: string, goalText: string): (b: bool)
    ensures b <==> (forall k :: 0 <= k < |currentText| ==> IsWhitespace(currentText[k]))
                   || (forall k :: 0 <= k < |goalText| ==> IsWhitespace(goalText[k]))
  {
    TrimEmptyIff(currentText);
    TrimEmptyIff(goalText);
    Trim(currentText) == [] || Trim(goalText) == []
  }

  /** `handleComplete`: both values must be positive numbers; the data starts
      with one entry, the starting weight, which is also the current weight. */
  function Complete(current: Parsed, goal: Parsed, startedAt: string, loggedAt: string): (r: Option<WeightData>)
    ensures r.Some? <==> IsPositive(current) && IsPositive(goal)
    ensures r.Some? ==>
              && r.value.enabled
              && r.value.currentWeight == current.value && r.value.startWeight == current.value
              && r.value.goalWeight == goal.value
              && r.value.startDate == startedAt
              && r.value.entries == [WeightEntry(current.value, loggedAt, Some("Starting weight"))]
    ensures r.Some? ==> CurrentIsLatest(r.value)
  {
    if !IsPositive(current) || !IsPositive(goal) then None
    else
      Some(WeightData(true, current.value, goal.value, current.value, startedAt,
                      [WeightEntry(current.value, loggedAt, Some("Starting weight"))]))
  }

  /** A blank field parses to `NaN`, so whenever completing succeeds on what
      `parse` makes of the two fields, the button was enabled. */
  lemma CompleteImpliesEnabled(parse: string -> Parsed, currentText: string, goalText: string, startedAt: string, loggedAt: string)
    requires forall s :: Trim(s) == [] ==> parse(s) == NaN
    requires Complete(parse(currentText), parse(goalText), startedAt, loggedAt).Some?
    ensures !ButtonDisabled(currentText, goalText)
  {
  }

  /** The converse fails: an enabled button does not promise a result, since
      a non-blank field may still not be a positive number. */
  lemma EnabledDoesNotImplyComplete(startedAt: string, loggedAt: string)
    ensures !ButtonDisabled("-1", "70")
    ensures Complete(Num(-1.0), Num(70.0), startedAt, loggedAt).None?
  {
    assert !IsWhitespace('-') && !IsWhitespace('1') && !IsWhitespace('7') && !IsWhitespace('0');
    assert TrimStart("-1") == "-1" && TrimEnd("-1") == "-1";
    assert TrimStart("70") == "70" && TrimEnd("70") == "70";
  }
}

=== FILE: weight_tracker.dfy ===
/** The weight log of src/components/WeightTracker.tsx: the add and delete
    mutators, which keep `currentWeight` equal to the weight of the last
    entry, and the derived figures (stats, weekly averages, the chart series,
    the recent list). Timestamps are read through `at`, which gives the
    millisecond time value of a stored timestamp; `now` is a time value too. */
module WeightTracker {
  import opened Wrappers
  import opened Text
  import opened Seqs
  import opened Types

  /** `7 * 24 * 60 * 60 * 1000`. */
  const WeekMs: int := 7 * 24 * 60 * 60 * 1000

  /** `30 * 24 * 60 * 60 * 1000`. */
  const MonthMs: int := 30 * 24 * 60 * 60 * 1000

  /** The stored-weight invariant: `currentWeight` is the weight of the last
      entry, or `startWeight` when there is none. */
  predicate CurrentIsLatest(d: WeightData) {
    d.currentWeight == if |d.entries| > 0 then d.entries[|d.entries| - 1].weight else d.startWeight
  }

  // --------------------------------------------------------------- mutators

  /** `notes.trim() || undefined`. */
  function NoteOf(notes: string): (r: Option<string>)
    ensures r.None? <==> forall k :: 0 <= k < |notes| ==> IsWhitespace(notes[k])
    ensures r.Some? ==> r.value == Trim(notes) && r.value != []
  {
    TrimEmptyIff(notes);
    if Trim(notes) == [] then None else Some(Trim(notes))
  }

  /** `handleAddEntry`: a positive weight is logged now and becomes the
      current weight; anything else changes nothing. */
  function AddEntry(d: WeightData, weight: Parsed, notes: string, now: string): (r: WeightData)
    ensures !IsPositive(weight) ==> r == d
    ensures IsPositive(weight) ==>
              && r.enabled == d.enabled && r.goalWeight == d.goalWeight
              && r.startWeight == d.startWeight && r.startDate == d.startDate
              && r.currentWeight == weight.value
              && |r.entries| == |d.entries| + 1
              && r.entries[..|d.entries|] == d.entries
              && r.entries[|d.entries|] == WeightEntry(weight.value, now, NoteOf(notes))
  {
    if !IsPositive(weight) then d
    else
      var e := WeightEntry(weight.value, now, NoteOf(notes));
      var r := d.(currentWeight := weight.value, entries := d.entries + [e]);
      assert r.entries[..|d.entries|] == d.entries;
      r
  }

  function NotAt(timestamp: string): WeightEntry -> bool {
    (e: WeightEntry) => e.timestamp != timestamp
  }

  /** `handleDeleteEntry(timestamp)`: drops every entry logged at that
      timestamp and re-derives the current weight from what is left. */
  function DeleteEntry(d: WeightData, timestamp: string): (r: WeightData)
    ensures r.enabled == d.enabled && r.goalWeight == d.goalWeight
    ensures r.startWeight == d.startWeight && r.startDate == d.startDate
    ensures SubsequenceOf(r.entries, d.entries)
    ensures forall e :: e in r.entries ==> e.timestamp != timestamp
    ensures forall e :: e in d.entries && e.timestamp != timestamp ==> e in r.entries
    ensures forall e: WeightEntry :: e.timestamp != timestamp ==>
              multiset(r.entries)[e] == multiset(d.entries)[e]
    ensures CurrentIsLatest(r)
  {
    var left := Filter(d.entries, NotAt(timestamp));
    FilterIsSubsequence(d.entries, NotAt(timestamp));
    FilterMembers(d.entries, NotAt(timestamp));
    FilterCount(d.entries, NotAt(timestamp));
    d.(currentWeight := if |left| > 0 then left[|left| - 1].weight else d.startWeight,
       entries := left)
  }

  /** Adding keeps the invariant (an accepted weight becomes the last entry
      and the current weight at once). */
  lemma AddEntryKeepsLatest(d: WeightData, weight: Parsed, notes: string, now: string)
    requires CurrentIsLatest(d)
    ensures CurrentIsLatest(AddEntry(d, weight, notes, now))
  {
  }

  /** Deleting an entry that is not there changes nothing, given the invariant. */
  lemma DeleteAbsentIsNoOp(d: WeightData, timestamp: string)
    requires CurrentIsLatest(d)
    requires forall e :: e in d.entries ==> e.timestamp != timestamp
    ensures DeleteEntry(d, timestamp) == d
  {
    forall k | 0 <= k < |d.entries| ensures NotAt(timestamp)(d.entries[k]) {
      assert d.entries[k] in d.entries;
    }
    FilterKeepsAll(d.entries, NotAt(timestamp));
  }

  /** Logging a weight under a new timestamp and deleting it again restores
      the log, given the invariant. */
  lemma AddThenDelete(d: WeightData, weight: Parsed, notes: string, now: string)
    requires CurrentIsLatest(d)
    requires forall e :: e in d.entries ==> e.timestamp != now
    ensures DeleteEntry(AddEntry(d, weight, notes, now), now) == d
  {
    if IsPositive(weight) {
      var e := WeightEntry(weight.value, now, NoteOf(notes));
      forall k | 0 <= k < |d.entries| ensures NotAt(now)(d.entries[k]) {
        assert d.entries[k] in d.entries;
      }
      var added := AddEntry(d, weight, notes, now);
      assert added.entries == d.entries + [e];
      FilterRemovesOne(d.entries + [e], |d.entries|, NotAt(now));
      assert (d.entries + [e])[..|d.entries|] == d.entries;
      var r := DeleteEntry(added, now);
      assert r.entries == d.entries;
    } else {
      DeleteAbsentIsNoOp(d, now);
    }
  }

  // ------------------------------------------------------------------ stats

  /** `entries.map(e => e.weight)`. */
  function Weights(es: seq<WeightEntry>): (r: seq<real>)
    ensures |r| == |es| && forall k :: 0 <= k < |es| ==> r[k] == es[k].weight
  {
    seq(|es|, k requires 0 <= k < |es| => es[k].weight)
  }

  /** How many entries a window admits. */
  function WindowCount(es: seq<WeightEntry>, inWindow: WeightEntry -> bool): nat {
    if es == [] then 0 else (if inWindow(es[0]) then 1 else 0) + WindowCount(es[1..], inWindow)
  }

  /** The total weight of the entries a window admits. */
  function WindowTotal(es: seq<WeightEntry>, inWindow: WeightEntry -> bool): real {
    if es == [] then 0.0 else (if inWindow(es[0]) then es[0].weight else 0.0) + WindowTotal(es[1..], inWindow)
  }

  /** Filtering the window and summing its weights counts and totals the
      entries the window admits. */
  lemma {:induction false} FilterWindow(es: seq<WeightEntry>, inWindow: WeightEntry -> bool)
    ensures |Filter(es, inWindow)| == WindowCount(es, inWindow)
    ensures Sum(Weights(Filter(es, inWindow))) == WindowTotal(es, inWindow)
  {
    if es != [] {
      FilterWindow(es[1..], inWindow);
      var rest := Filter(es[1..], inWindow);
      if inWindow(es[0]) {
        assert Filter(es, inWindow) == [es[0]] + rest;
        var w := Weights([es[0]] + rest);
        assert w[0] == es[0].weight && w[1..] == Weights(rest);
      } else {
        assert Filter(es, inWindow) == rest;
      }
    }
  }

  /** The mean weight of the entries a window admits, or `None` when it
      admits none: the value times the number of entries is their total. */
  function WindowAverage(es: seq<WeightEntry>, inWindow: WeightEntry -> bool): (r: Option<real>)
    ensures r.None? <==> forall k :: 0 <= k < |es| ==> !inWindow(es[k])
    ensures r.None? <==> WindowCount(es, inWindow) == 0
    ensures r.Some? ==> r.value * WindowCount(es, inWindow) as real == WindowTotal(es, inWindow)
  {
    var w := Filter(es, inWindow);
    FilterLengthNone(es, inWindow);
    FilterWindow(es, inWindow);
    if |w| > 0 then Some(Mean(Weights(w))) else None
  }

  /** Two weigh-ins of 80 and 79 in the window average 79.5. */
  lemma TwoWeighIns(a: WeightEntry, b: WeightEntry, inWindow: WeightEntry -> bool)
    requires a.weight == 80.0 && b.weight == 79.0 && inWindow(a) && inWindow(b)
    ensures WindowAverage([a, b], inWindow) == Some(79.5)
  {
    assert [a, b][1..] == [b] && [b][1..] == [];
    assert WindowCount([b], inWindow) == 1 + WindowCount([], inWindow) == 1;
    assert WindowTotal([b], inWindow) == 79.0 + WindowTotal([], inWindow) == 79.0;
    assert WindowCount([a, b], inWindow) == 1 + WindowCount([b], inWindow);
    assert WindowTotal([a, b], inWindow) == 80.0 + WindowTotal([b], inWindow);
  }

  /** A window average lies between any bounds of the weights it averages. */
  lemma WindowAverageBounds(es: seq<WeightEntry>, inWindow: WeightEntry -> bool, lo: real, hi: real)
    requires forall k :: 0 <= k < |es| && inWindow(es[k]) ==> lo <= es[k].weight <= hi
    ensures WindowAverage(es, inWindow).Some? ==> lo <= WindowAverage(es, inWindow).value <= hi
  {
    var w := Filter(es, inWindow);
    FilterMembers(es, inWindow);
    if |w| > 0 {
      forall k | 0 <= k < |w| ensures lo <= Weights(w)[k] <= hi {
        assert w[k] in es;
        var j :| 0 <= j < |es| && es[j] == w[k];
      }
      MeanBounds(Weights(w), lo, hi);
    }
  }

  /** Logged at or after `from`. */
  function Since(at: string -> int, from: int): WeightEntry -> bool {
    (e: WeightEntry) => at(e.timestamp) >= from
  }

  /** Logged in `[from, until)`. */
  function Between(at: string -> int, from: int, until: int): WeightEntry -> bool {
    (e: WeightEntry) => from <= at(e.timestamp) < until
  }

  datatype Stats = Stats(toGo: real, totalLost: real, weekChange: real)

  /** The average of the last seven days, `currentWeight` when there is none. */
  function LastWeekAverage(d: WeightData, at: string -> int, now: int): (r: real)
    ensures (forall k :: 0 <= k < |d.entries| ==> at(d.entries[k].timestamp) < now - WeekMs) ==> r == d.currentWeight
    ensures var n := WindowCount(d.entries, Since(at, now - WeekMs));
            n > 0 ==> r * n as real == WindowTotal(d.entries, Since(at, now - WeekMs))
  {
    WindowAverage(d.entries, Since(at, now - WeekMs)).GetOr(d.currentWeight)
  }

  /** The average of the seven days before, `startWeight` when there is none. */
  function PrevWeekAverage(d: WeightData, at: string -> int, now: int): (r: real)
    ensures (forall k :: 0 <= k < |d.entries| ==>
               !(now - 2 * WeekMs <= at(d.entries[k].timestamp) < now - WeekMs)) ==> r == d.startWeight
    ensures var n := WindowCount(d.entries, Between(at, now - 2 * WeekMs, now - WeekMs));
            n > 0 ==> r * n as real == WindowTotal(d.entries, Between(at, now - 2 * WeekMs, now - WeekMs))
  {
    WindowAverage(d.entries, Between(at, now - 2 * WeekMs, now - WeekMs)).GetOr(d.startWeight)
  }

  /** Both seven-day averages lie within any bounds of the logged weights
      and of the weight each defaults to. */
  lemma WeekAveragesBounded(d: WeightData, at: string -> int, now: int, lo: real, hi: real)
    requires forall k :: 0 <= k < |d.entries| ==> lo <= d.entries[k].weight <= hi
    requires lo <= d.currentWeight <= hi && lo <= d.startWeight <= hi
    ensures lo <= LastWeekAverage(d, at, now) <= hi
    ensures lo <= PrevWeekAverage(d, at, now) <= hi
  {
    WindowAverageBounds(d.entries, Since(at, now - WeekMs), lo, hi);
    WindowAverageBounds(d.entries, Between(at, now - 2 * WeekMs, now - WeekMs), lo, hi);
  }

  /** `stats`. What is left to go and what is lost add up to the planned
      loss; the week change compares the two seven-day averages. */
  function ComputeStats(d: WeightData, at: string -> int, now: int): (r: Stats)
    ensures r.toGo + r.totalLost == d.startWeight - d.goalWeight
    ensures r.toGo <= 0.0 <==> d.currentWeight <= d.goalWeight
    ensures r.totalLost > 0.0 <==> d.currentWeight < d.startWeight
    ensures r.weekChange == LastWeekAverage(d, at, now) - PrevWeekAverage(d, at, now)
  {
    Stats(d.currentWeight - d.goalWeight, d.startWeight - d.currentWeight,
          LastWeekAverage(d, at, now) - PrevWeekAverage(d, at, now))
  }

  /** With no entry in the last fourteen days and the invariant, the week
      change is the weight lost since the start, negated: the current weight
      against the starting one. */
  lemma QuietFortnight(d: WeightData, at: string -> int, now: int)
    requires forall k :: 0 <= k < |d.entries| ==> at(d.entries[k].timestamp) < now - 2 * WeekMs
    ensures ComputeStats(d, at, now).weekChange == -ComputeStats(d, at, now).totalLost
  {
    assert forall k :: 0 <= k < |d.entries| ==> !Since(at, now - WeekMs)(d.entries[k]);
    assert forall k :: 0 <= k < |d.entries| ==> !Between(at, now - 2 * WeekMs, now - WeekMs)(d.entries[k]);
  }

  // ------------------------------------------------------- weekly averages

  datatype Week = Week(weekLabel: string, average: Option<real>, color: bool)

  /** Week `i` back from now covers `[now - (i + 1) weeks, now - i weeks)`. */
  function WeekWindow(at: string -> int, now: int, i: int): WeightEntry -> bool {
    Between(at, now - (i + 1) * WeekMs, now - i * WeekMs)
  }

  function WeekAverage(es: seq<WeightEntry>, at: string -> int, now: int, i: int): Option<real> {
    WindowAverage(es, WeekWindow(at, now, i))
  }

  /** `` `W${n}` `` for a one-digit `n`. */
  function Label(n: nat): (r: string)
    requires n < 10
    ensures |r| == 2 && r[0] == 'W' && r[1] as int == '0' as int + n
  {
    ['W', ('0' as int + n) as char]
  }

  /** The previous-week window of the stats is exactly the window of W3. */
  lemma PrevWeekIsW3(d: WeightData, at: string -> int, now: int)
    ensures PrevWeekAverage(d, at, now) == WeekAverage(d.entries, at, now, 1).GetOr(d.startWeight)
  {
    assert Between(at, now - 2 * WeekMs, now - WeekMs) == WeekWindow(at, now, 1);
  }

  /** Whether a week is drawn green: its average is strictly below the
      average of the week after it. */
  predicate Improved(older: Option<real>, newer: Option<real>) {
    older.Some? && newer.Some? && older.value < newer.value
  }

  /** The four window averages, newest week first. */
  function WeekAverages(es: seq<WeightEntry>, at: string -> int, now: int): (r: seq<Option<real>>)
    ensures |r| == 4 && forall i :: 0 <= i < 4 ==> r[i] == WeekAverage(es, at, now, i)
  {
    seq(4, i requires 0 <= i < 4 => WeekAverage(es, at, now, i))
  }

  /** The row the loop of `weeklyAverages` builds for week `i` back, given
      the averages and the rows built so far (newest first after the
      `unshift`). */
  function WeekRow(avgs: seq<Option<real>>, i: nat, built: seq<Week>): Week
    requires i < 4 && i < |avgs| && |built| == i
  {
    var avg := avgs[i];
    Week(Label(4 - i), avg, i > 0 && avg.Some? && built[0].average.Some? && avg.value < built[0].average.value)
  }

  /** The rows after `n` rounds of the loop. */
  function Unshifted(avgs: seq<Option<real>>, n: nat): (r: seq<Week>)
    requires n <= 4 && n <= |avgs|
    ensures |r| == n
  {
    if n == 0 then []
    else
      var built := Unshifted(avgs, n - 1);
      [WeekRow(avgs, n - 1, built)] + built
  }

  /** After `n` rounds the row at position `k` is week `n - 1 - k` back: it
      carries that week's label and average, the oldest row so far is not
      green, and every other row is green exactly when it improved on the
      next newer one. */
  lemma {:induction false} UnshiftedRows(avgs: seq<Option<real>>, n: nat)
    requires n <= 4 && n <= |avgs|
    ensures var r := Unshifted(avgs, n);
            && (forall k :: 0 <= k < n ==> r[k].weekLabel == Label(4 - (n - 1 - k)))
            && (forall k :: 0 <= k < n ==> r[k].average == avgs[n - 1 - k])
            && (n > 0 ==> !r[n - 1].color)
            && (forall k :: 0 <= k < n - 1 ==> (r[k].color <==> Improved(r[k].average, r[k + 1].average)))
  {
    if n > 0 {
      var built := Unshifted(avgs, n - 1);
      UnshiftedRows(avgs, n - 1);
      var r := Unshifted(avgs, n);
      assert r[0] == WeekRow(avgs, n - 1, built);
      assert forall k :: 1 <= k < n ==> r[k] == built[k - 1];
    }
  }

  /** `weeklyAverages`: four weeks, W1 the oldest to W4 the newest; a week is
      green exactly when its average is below the next newer week's, and W4
      never is. */
  method WeeklyAverages(es: seq<WeightEntry>, at: string -> int, now: int) returns (weeks: seq<Week>)
    ensures |weeks| == 4
    ensures forall k :: 0 <= k < 4 ==> weeks[k].weekLabel == Label(k + 1)
    ensures forall k :: 0 <= k < 4 ==> weeks[k].average == WeekAverage(es, at, now, 3 - k)
    ensures !weeks[3].color
    ensures forall k :: 0 <= k < 3 ==> (weeks[k].color <==> Improved(weeks[k].average, weeks[k + 1].average))
  {
    ghost var avgs := WeekAverages(es, at, now);
    weeks := [];
    var i := 0;
    while i < 4
      invariant 0 <= i <= 4
      invariant weeks == Unshifted(avgs, i)
    {
      var avg := WeekAverage(es, at, now, i);
      assert avg == avgs[i];
      var color := i > 0 && avg.Some? && weeks[0].average.Some? && avg.value < weeks[0].average.value;
      weeks := [Week(Label(4 - i), avg, color)] + weeks;
      i := i + 1;
    }
    UnshiftedRows(avgs, 4);
  }

  // ------------------------------------------------------------ chart, list

  /** Oldest first: the key that sorts by descending key into ascending time. */
  function EarlierFirst(at: string -> int): WeightEntry -> int {
    (e: WeightEntry) => -at(e.timestamp)
  }

  /** Oldest first: timestamps never decrease along `r`. */
  predicate Chronological(r: seq<WeightEntry>, at: string -> int) {
    forall i, j :: 0 <= i < j < |r| ==> at(r[i].timestamp) <= at(r[j].timestamp)
  }

  /** The last thirty days, oldest first (`recentEntries` of `chartData`). */
  function MonthSeries(es: seq<WeightEntry>, at: string -> int, now: int): (r: seq<WeightEntry>)
    ensures multiset(r) == multiset(Filter(es, Since(at, now - MonthMs)))
    ensures Chronological(r, at)
    ensures SameTies(r, Filter(es, Since(at, now - MonthMs)), EarlierFirst(at))
    ensures forall e :: e in r ==> e in es && at(e.timestamp) >= now - MonthMs
  {
    var recent := Filter(es, Since(at, now - MonthMs));
    var r := SortDesc(recent, EarlierFirst(at));
    FilterMembers(es, Since(at, now - MonthMs));
    forall e | e in r ensures e in es && at(e.timestamp) >= now - MonthMs {
      assert e in multiset(recent);
    }
    forall i, j | 0 <= i < j < |r| ensures at(r[i].timestamp) <= at(r[j].timestamp) {
      assert EarlierFirst(at)(r[i]) >= EarlierFirst(at)(r[j]);
    }
    r
  }

  /** `chartData` as written: with nothing in the last thirty days it falls
      back to `[data.entries[0]]`, which is `[undefined]` once every entry has
      been deleted; `None` stands for that `undefined`. */
  function ChartDataAsWritten(es: seq<WeightEntry>, at: string -> int, now: int): (r: seq<Option<WeightEntry>>)
    ensures |r| >= 1
    ensures var m := MonthSeries(es, at, now);
            m != [] ==> |r| == |m| && forall k :: 0 <= k < |m| ==> r[k] == Some(m[k])
    ensures MonthSeries(es, at, now) == [] ==> r == [if es == [] then None else Some(es[0])]
  {
    var recent := MonthSeries(es, at, now);
    if |recent| > 0 then seq(|recent|, k requires 0 <= k < |recent| => Some(recent[k]))
    else [if |es| > 0 then Some(es[0]) else None]
  }

  /** After the last entry is deleted, the chart series holds one undefined
      point, which `chartMinMax` then reads `.weight` of. */
  lemma ChartOfEmptyLogIsUndefined(at: string -> int, now: int)
    ensures ChartDataAsWritten([], at, now) == [None]
  {
    assert Filter([], Since(at, now - MonthMs)) == [];
  }

  /** `chartData`, corrected: the fallback takes the first entry only when
      there is one, so the series is empty for an empty log (the case
      `chartMinMax` already handles) and otherwise holds only logged entries. */
  function ChartData(es: seq<WeightEntry>, at: string -> int, now: int): (r: seq<WeightEntry>)
    ensures r == [] <==> es == []
    ensures forall e :: e in r ==> e in es
    ensures Chronological(r, at)
    ensures var m := MonthSeries(es, at, now);
            (m != [] ==> r == m) && (m == [] && es != [] ==> r == [es[0]])
  {
    var recent := MonthSeries(es, at, now);
    if recent != [] then
      assert recent[0] in es;
      recent
    else if es == [] then []
    else
      var r := [es[0]];
      assert Chronological(r, at);
      r
  }

  /** The corrected series agrees with the original wherever the original
      is defined. */
  lemma ChartDataAgrees(es: seq<WeightEntry>, at: string -> int, now: int)
    requires es != []
    ensures var w := ChartDataAsWritten(es, at, now);
            var c := ChartData(es, at, now);
            |w| == |c| && forall k :: 0 <= k < |c| ==> w[k] == Some(c[k])
  {
  }

  /** `[...data.entries].reverse().slice(0, 10)`: the ten newest entries,
      newest first. */
  function RecentEntries(es: seq<WeightEntry>): (r: seq<WeightEntry>)
    ensures |r| == if |es| < 10 then |es| else 10
    ensures forall k :: 0 <= k < |r| ==> r[k] == es[|es| - 1 - k]
  {
    Take(Reverse(es), 10)
  }
}

=== FILE: wrappers.dfy ===
/** Failure-compatible wrappers shared by the whole model. */
module Wrappers {

  /** A value that may be absent: the model's rendering of `undefined`/`null`. */
  datatype Option<+T> = None | Some(value: T) {
    function GetOr(default: T): T {
      match this
      case Some(v) => v
      case None => default
    }
  }

  /** The outcome of an operation that resolves with a value or rejects with an error. */
  datatype Result<+T, +E> = Ok(value: T) | Err(error: E)
}
